=== FILE: README.md ===
# School portal: access control, access cards, login, start page and itineraries

A Dafny model of the decision logic of a multi-school portal. The server is Express
with PostgreSQL and Sequelize; the client is React. The model covers:

- **Token gate** (`authenticateToken`). The bearer token is the second field of the
  `Authorization` header split on single spaces. A missing token is answered with 401.
  A token the verifier rejects is answered with 403.
- **Access check** (`checkAccess`). The permission row for the route's (type, resource)
  key is looked up, and only the first such row is used. Access is granted when some
  access card of the caller has a role listed by some rule whose condition is `roles`.
  The composition of the two middlewares is modelled as well.
- **Access-card listing** (`GET /api/access-cards`). A Student card is valid only when
  some enrollment references it. The answer is all or nothing: either a 400 naming
  exactly the invalid cards, or every card of the caller.
- **Login** (`POST /api/auth/login`). The account is resolved by primary email first,
  then by access-card email. An unknown email and a wrong password get the same 401.
  The token carries the account's id and primary email.
  Also modelled: `GET /api/auth/access-cards`, which requires the `account_id` query.
- **Start page**:
  - the card chosen once the cards arrive (the remembered one, or the first);
  - `handleCardChange`;
  - the error/loading/portal screens;
  - the dashboard chosen by role and the school label.
- **Itinerary store** (`/api/itineraries`). Listing, reading, creating, updating and
  deleting are transitions of a store holding both tables. They respect the NOT NULL
  columns of the Sequelize models. A store invariant is kept: distinct keys below the
  next auto-increment value, and every activity belonging to an existing itinerary.
- **Calendar page**:
  - the flattening of listed itineraries into one-hour events;
  - the form filled from a clicked event;
  - the choice between `PUT`, `POST` and `DELETE`;
  - what those requests do to the store.

All data is immutable: a table is a sequence of rows in the order a scan of it returns
them, and every operation is a pure function. The order of a join's rows, which
PostgreSQL leaves unspecified without `ORDER BY`, is fixed by the model (see
`Login.CardEmailRows` under "## Left out"). Effects are replaced by parameters:

- **Database**: a read-only handler receives `Fetch<Tables>`. `StoreFailure` stands for
  a database that cannot be reached, which every handler answers with its 500.
- **JWT and bcrypt**: signing, verification and the password comparison are
  function-valued parameters.
- **Clock**: the current time is a parameter.
- **Local storage**: the `lastUsedCard` entry is a field of the start page's state.

Dates are integer milliseconds.

Modules: `Basics` (Option, Fetch), `Seqs` (JavaScript `filter`/`find`/`map`), `Numerals`
(JavaScript `String(n)` and `parseInt`, PostgreSQL's integer input), `Schema` (rows),
`TokenAuth`, `AccessCheck`, `AccessCardsRoute`, `Login`, `StartView`, `ItineraryModel`,
`ItineraryRoutes`, `Calendar`.

## Notable behaviour

- **Enrollments and scope**: `checkAccess` reads neither enrollments nor the card's
  school or `global` flag. A Student card without enrollments is granted by a rule that
  admits Student (`AccessCheck.UnenrolledStudentGranted`); only the card listing refuses
  such a card.
- **Missing permission and empty rule list**: a missing permission row is answered with
  "No permission found for this resource", and a row whose rule list is empty with
  "Access denied".
- **Editing one event**: submitting an edit `PUT`s a one-element activity list. The
  server then replaces all of that itinerary's activities, so editing one event removes
  its siblings (`Calendar.EditLeavesOneActivity`). Deleting one event deletes its
  whole itinerary (`Calendar.DeleteRemovesItinerary`). Both are modelled as written.
- **Forgotten card**: a remembered card id that none of the cards has selects nothing,
  and the page then stays on "Loading..." (`StartView.StoredIdWithoutCardSelectsNothing`).

## Model

| member | source | states |
|---|---|---|
| TokenAuth.Split | middleware/auth.js:6 | `split(' ')` yields at least one field and no field contains a space |
| TokenAuth.JoinSplit | middleware/auth.js:6 | joining the fields of a split with single spaces gives back the header |
| TokenAuth.SplitJoin | middleware/auth.js:6 | splitting space-free fields joined by single spaces gives back the fields |
| TokenAuth.TokenIsSecondField | middleware/auth.js:5-6 | for any space-free word, `word + " " + token` followed by nothing or a space yields `token`: the scheme word is never checked |
| TokenAuth.NoSpaceNoToken | middleware/auth.js:6-10 | a header with no space carries no token |
| TokenAuth.TokenShape | middleware/auth.js:6 | an extracted token is non-empty, space-free, and sits between the first space and the next space or the end |
| TokenAuth.AuthenticateToken | middleware/auth.js:4-20 | 401 "Access token is required" iff no token is extracted; 403 "Invalid or expired token" iff a token is extracted but not verified; a verified token passes the request on with exactly the payload the verifier returned |
| TokenAuth.MissingTokenIgnoresVerifier | middleware/auth.js:8-10 | without a token the outcome is the 401 whatever the verifier does |
| AccessCheck.CardSatisfiesIff | middleware/auth.js:52-57 | the inner `some` holds iff some rule has condition `roles` and lists the card's role |
| AccessCheck.HasAccessIff | middleware/auth.js:51-58 | the nested `some` holds iff some card and some rule admit each other |
| AccessCheck.HasAccessMonotone | middleware/auth.js:51-58 | adding cards or rules never turns a grant into a denial; removing them never turns a denial into a grant |
| AccessCheck.OnlyRolesRulesGrant | middleware/auth.js:51-62 | rules of other condition kinds never grant; no cards or no rules means no access |
| AccessCheck.PermissionFor | middleware/auth.js:38-43 | the row found has the requested key; none is found iff no row has it; an absent parameter (SQL NULL) matches nothing |
| AccessCheck.FirstPermissionRowUsed | middleware/auth.js:42-43 | among rows sharing a key, the first one is used |
| AccessCheck.CheckAccess | middleware/auth.js:22-69 | 500 iff the store fails; 403 "No permission found for this resource" when no row has the key; `next()` iff a row exists and some card of the caller is admitted by its rules; a row that admits none of the caller's cards gives 403 "Access denied" |
| AccessCheck.CheckAccessMonotone | middleware/auth.js:28-58 | adding access cards to the table never revokes a grant |
| AccessCheck.OtherAccountsIrrelevant | middleware/auth.js:28-35 | a card of another account does not change the decision |
| AccessCheck.Gate | middleware/auth.js:4-69 | the handler runs iff the token is verified and the access check grants; a token refusal is passed on unchanged |
| AccessCheck.StartRouteNeverReachesHandler | server.js:34-36 | the `/api/start` route as declared never reaches its handler: with a verified token and a reachable store the answer is always the missing-permission 403 |
| AccessCheck.ProtectedRouteGrantsIff | middleware/auth.js:4-69 | a route supplying the key (type, resource) runs its handler iff a token is extracted and verified, the store is reachable, and the first row with that key admits one of the verified user's cards |
| AccessCheck.GlobalAdminGranted | middleware/auth.js:38-64 | a global Admin card is granted by a rule admitting Admin and Instructor |
| AccessCheck.StudentRefused | middleware/auth.js:51-62 | a lone Student card is refused by that rule with "Access denied" |
| AccessCheck.UnconfiguredResourceRefused | middleware/auth.js:42-47 | a key with no permission row is refused with "No permission found for this resource" |
| AccessCheck.AnyCardSuffices | middleware/auth.js:51-58 | one admitted card among several grants access |
| AccessCheck.UnenrolledStudentGranted | middleware/auth.js:51-64 | a Student card with no enrollment is granted by a rule admitting Student: enrollments are not consulted |
| Schema.CardsOf | middleware/auth.js:28-35 | exactly the cards whose account is the caller, in table order |
| Schema.JoinSchool | routes/access-cards.js:28 | the LEFT JOIN yields a school name iff the card's school id names a school row, and then the name and logo of such a row; NULL columns otherwise |
| Schema.JoinSchoolFirst | routes/access-cards.js:28 | the joined columns are the name and logo of the first school row with the card's school id (the only one, `school_id` being the key) |
| Schema.CardRowsOf | routes/access-cards.js:11-30 | row i is the i-th card of the account joined with its school's name and logo; one row per card, in table order |
| Schema.AuthCardRowsOf | routes/auth.js:39-45 | row i is the i-th card of the account with its school's name only (the query selects `ac.*, s.school_name`, no logo); one row per card, in table order |
| AccessCardsRoute.EnrollmentCountPositive | routes/access-cards.js:19-26 | `COUNT(*) > 0` over the enrollments holds iff some enrollment references the card |
| AccessCardsRoute.InvalidIff | routes/access-cards.js:19-37 | a row is filtered out as invalid iff its role is Student and no enrollment references its card |
| AccessCardsRoute.ViewsOf | routes/access-cards.js:11-32 | view i is the caller's i-th card joined with its school and flagged by its enrollment count; one view per card, in order |
| AccessCardsRoute.ListCards | routes/access-cards.js:32-53 | 500 iff the store fails, and a store that answers never gets an error reply; otherwise the 400 iff some card is invalid, else every card's row unchanged |
| AccessCardsRoute.InvalidCardsExact | routes/access-cards.js:35-46 | the 400's `invalidCards` is the (email, school) of the views at exactly the invalid positions, in increasing order of position, and an entry is listed iff it is the projection of some invalid view |
| AccessCardsRoute.InvalidEntryOfCard | routes/access-cards.js:35-46 | each entry of the filtered-and-mapped list is the (email, school name) pair of some card of the caller whose role is Student and that has no enrollment |
| AccessCardsRoute.InvalidCardsAreStudents | routes/access-cards.js:35-37 | every listed invalid card is a Student card of the caller with no enrollment |
| AccessCardsRoute.GetAccessCards | routes/access-cards.js:7-54 | a token refusal is answered by the gate; otherwise the listing runs for the verified user's id (the token check mounted in `server.js` and the router's own give the same outcome) |
| AccessCardsRoute.OneInvalidCardRefusesAll | routes/access-cards.js:19-47 | one unenrolled Student card turns the whole answer into the 400, and that card is listed |
| Login.PrimaryRows | routes/auth.js:13-16 | exactly the accounts whose primary email is the given one; no email matches nothing |
| Login.CardEmailRows | routes/auth.js:20-23 | every row is an account owning a card with the given email |
| Login.ResolveAccount | routes/auth.js:13-27 | the account used is an account of the table |
| Login.Login | routes/auth.js:8-70 | 500 when the store fails; 401 "Invalid credentials" when no account resolves or the password does not match; 500 when an account resolves but no password is sent; a resolved account whose password matches always logs in, and then the token is signed for the payload {id, primary email} and the reply lists the account's cards with their school names |
| Login.PrimaryEmailFirst | routes/auth.js:13-27 | a primary-email match is used whatever the access cards say, and it is the first matching row |
| Login.CardEmailFallback | routes/auth.js:18-27 | with no primary match, the account of the first card with that email, in the model's row order, is used |
| Login.CardEmailRowsFirst | routes/auth.js:20-25 | the first row of the fallback query is the owner of the first card with the email |
| Login.CardEmailSameAccount | routes/auth.js:18-33 | with no primary match and every card with the email owned by one account, every row the join can return is that account, in whatever order they come, and the login goes on with the first account row with that id |
| Login.UnknownEmailRefused | routes/auth.js:29-31 | an email no account or card has resolves nothing and is answered with 401 "Invalid credentials" |
| Login.WrongPasswordLikeUnknownEmail | routes/auth.js:29-36 | a wrong password gets exactly the answer an unknown email gets |
| Login.CardEmailLoginSignsPrimaryEmail | routes/auth.js:48-52 | a login through an access-card email signs the account's primary email, not the one typed |
| Login.LoginListsOwnCards | routes/auth.js:39-64 | on success the reply's cards are exactly the resolved account's cards |
| Login.AccountCardsFor | routes/auth.js:73-93 | no or empty `account_id` gives 401 "No account ID provided"; a store failure, or text PostgreSQL cannot read as an `integer` in range, gives 500 "Server error"; text PostgreSQL reads as an in-range `integer` always gets the listing, with the cards and school names of the account it denotes |
| Login.AccountCardsForId | routes/auth.js:80-91 | the decimal text of an id in the `integer` range lists exactly that account's cards; any other id is the 500 |
| Numerals.ParseIntOfIntToString | client/src/components/Start.js:19 | `parseInt(String(n))` is `n` for every integer |
| Numerals.PgIntegerOfIntToString | routes/auth.js:80-86 | PostgreSQL reads the decimal text of `n` as `n` when `n` is in the `integer` range (-2^31 to 2^31-1), and rejects it otherwise |
| Seqs.Filter | routes/access-cards.js:35-37 | the kept elements are exactly those satisfying the predicate, with their multiplicities |
| Seqs.Find | client/src/components/Start.js:19 | a found element is in the list and satisfies the predicate; nothing is found iff no element does |
| Seqs.FindIsFirst | client/src/components/Start.js:19 | `find` returns the first satisfying element |
| Seqs.Map | client/src/components/Itineraries.js:45 | one result per element, in order |
| Seqs.FilterPositions | routes/access-cards.js:35-37 | a filter keeps the elements at exactly the satisfying positions, in increasing order of position |
| StartView.HandleCardChange | client/src/components/Start.js:39-42 | the card becomes the selection and its id is remembered |
| StartView.DashboardFor | client/src/components/Start.js:74-127 | exactly one dashboard for Student, Instructor or Admin, none for any other role |
| StartView.PanelFor | client/src/components/Start.js:74-127 | a role panel is shown iff the role has a dashboard; it shows a logo iff the school name is non-empty |
| StartView.Render | client/src/components/Start.js:44-130 | an error takes precedence; with no error and no selection "Loading..." is shown; with no error and a selection the portal is shown, with the selected card's role, school label, email and panel, and one selector entry per card, in order |
| StartView.FirstVisitShowsFirstCard | client/src/components/Start.js:16-69 | with nothing remembered and some cards, the page shows the portal for the first card: its role, its school ("All Schools" when global), its email, a panel iff the role is known |
| StartView.StoredIdSelects | client/src/components/Start.js:17-20 | a remembered id that a card has selects the first card with that id |
| StartView.StoredIdWithoutCardSelectsNothing | client/src/components/Start.js:18-20 | a remembered id that no card has selects nothing, and the page stays on "Loading..." |
| StartView.NothingStoredTakesFirst | client/src/components/Start.js:21-23 | with nothing remembered the first card is selected; with no cards "Loading..." is shown |
| StartView.CardChangeRemembered | client/src/components/Start.js:39-42 | after a card change, the next load selects the same card while it is still listed |
| StartView.InvalidCardShowsError | client/src/components/Start.js:24-26 | an unenrolled Student card of the caller makes the page show the fetch error with the server's message |
| ItineraryModel.Column | models/Itinerary.js:45-50 | a nullable column is set iff the field is given |
| ItineraryModel.BuildActivity | models/Itinerary.js:31-51 | an activity is created iff name and date are given; it carries them, the given location and notes (NULL otherwise), its key and its itinerary |
| ItineraryModel.BuildItinerary | models/Itinerary.js:4-28 | an itinerary is created iff title, description, startDate and endDate are all given; it carries them, its key and its creation time |
| ItineraryModel.UpdateFields | routes/itineraries.js:71-76 | a NULL field fails validation; missing fields keep their value, given ones are set, the key and creation time never change |
| ItineraryModel.ActivitiesOf | models/Itinerary.js:54-55 | the activities whose itinerary key is the given one |
| ItineraryModel.EmptyStore | models/Itinerary.js:5-9 | the empty tables satisfy the store invariant |
| ItineraryRoutes.Lookup | routes/itineraries.js:21-23 | `findByPk` finds a row with the key iff one exists |
| ItineraryRoutes.SortByCreated | routes/itineraries.js:8-11 | a permutation ordered by creation time, newest first |
| ItineraryRoutes.ListAll | routes/itineraries.js:6-16 | every itinerary exactly once, newest first, each with all of its activities |
| ItineraryRoutes.GetOne | routes/itineraries.js:19-29 | 404 "Itinerary not found" iff the key is absent; otherwise the itinerary with its activities |
| ItineraryRoutes.CreatedActivities | routes/itineraries.js:43-49 | the inserted activities take consecutive fresh keys and point at the itinerary; when all are valid there is one per element, built from it |
| ItineraryRoutes.CreatedAreValidOnes | routes/itineraries.js:43-49 | for any list, valid or mixed, the inserted activities are exactly the elements that pass validation, in list order, each built with the next fresh key |
| ItineraryRoutes.AddActivities | routes/itineraries.js:43-49 | the flag holds iff every element is valid; the itinerary table is untouched |
| ItineraryRoutes.Create | routes/itineraries.js:32-60 | an invalid itinerary gives 400 with the store unchanged; a valid one gives 201 iff the activity list is absent or every element passes validation; a 201 reply shows the new key and the stored activities |
| ItineraryRoutes.ReplaceItinerary | routes/itineraries.js:71-76 | the row with the key is replaced and no other row changes |
| ItineraryRoutes.Update | routes/itineraries.js:63-105 | a missing key gives 404 with the store unchanged; a NULL field gives 400 with the store unchanged; otherwise the reply is the update iff the activity list is absent or every element passes validation, and it shows the stored activities |
| ItineraryRoutes.Delete | routes/itineraries.js:108-124 | a missing key gives 404 with the store unchanged; otherwise "Itinerary deleted successfully" |
| ItineraryRoutes.AddActivitiesValid | routes/itineraries.js:44-49 | inserting activities for an existing itinerary keeps the store invariant |
| ItineraryRoutes.WithItineraryValid | routes/itineraries.js:36-41 | the new itinerary takes a key no row has, keeps the invariant and has no activities yet |
| ItineraryRoutes.CreateEffect | routes/itineraries.js:36-56 | a created itinerary holds exactly the activities created from a non-empty list (its valid elements, in order), none otherwise; other itineraries' activities are untouched; the invariant holds |
| ItineraryRoutes.ReplaceValid | routes/itineraries.js:71-76 | replacing an itinerary's fields keeps the invariant and the set of existing keys |
| ItineraryRoutes.ClearValid | routes/itineraries.js:81-83 | destroying an itinerary's activities empties its list, keeps the others and keeps the invariant |
| ItineraryRoutes.UpdateEffect | routes/itineraries.js:79-94 | with `activities` present the itinerary's activities become exactly those created from the supplied list, which are its valid elements in order (all of them when the reply is the update; `[]` clears them); without it the activity table is unchanged; other itineraries are never touched; the invariant holds |
| ItineraryRoutes.UpdateReply | routes/itineraries.js:96-101 | a valid update replies with the updated itinerary and its stored activities |
| ItineraryRoutes.DeleteValid | routes/itineraries.js:113-120 | a deletion keeps the invariant |
| ItineraryRoutes.DeleteEffect | routes/itineraries.js:113-120 | the itinerary and exactly its activities are removed, and nothing else |
| ItineraryRoutes.CreateKeepsItineraryOnBadActivity | routes/itineraries.js:43-58 | an invalid activity gives 400 although the itinerary was already inserted |
| Calendar.Flatten | client/src/components/Itineraries.js:44-54 | one event per activity of the listed itineraries, each ending 3,600,000 ms after it starts |
| Calendar.FlattenAppend | client/src/components/Itineraries.js:44 | events come itinerary by itinerary, in list order |
| Calendar.FlattenMembers | client/src/components/Itineraries.js:44-54 | an event is shown iff it is the event of some activity of some listed itinerary |
| Calendar.EveryActivityShown | client/src/components/Itineraries.js:41-55 | every activity of a valid store appears as an event tagged with its itinerary |
| Calendar.EveryEventFromStore | client/src/components/Itineraries.js:44-54 | every event is the event of a stored activity, with that activity's itinerary key |
| Calendar.SubmitRequest | client/src/components/Itineraries.js:104-118 | a `PUT` to the selected event's itinerary with only a one-element activity list iff an event is selected; otherwise a `POST` of the form's itinerary with that activity |
| Calendar.DeleteRequest | client/src/components/Itineraries.js:128-132 | nothing without a selection; otherwise a `DELETE` of the parent itinerary |
| Calendar.EditLeavesOneActivity | client/src/components/Itineraries.js:104-108 | an edit leaves its itinerary holding exactly the one activity built from the form, its fields unchanged, the other itineraries untouched |
| Calendar.UnchangedEditRoundTrip | client/src/components/Itineraries.js:73-108 | clicking an activity's event and submitting the form unchanged stores that activity again under a fresh key with the same name, date, location and notes, a NULL location or note coming back as the empty text |
| Calendar.AddCreatesItinerary | client/src/components/Itineraries.js:110-117 | submitting without a selection creates an itinerary from the form with exactly one activity |
| Calendar.DeleteRemovesItinerary | client/src/components/Itineraries.js:128-132 | deleting an event removes its whole itinerary and all of that itinerary's activities, and nothing else |
| Calendar.EditOfDeletedItinerary | client/src/components/Itineraries.js:106-108 | an edit of an itinerary that no longer exists gets the 404 and changes nothing |
| Calendar.HandlersKeepClosedUnselected | client/src/components/Itineraries.js:120-171 | a closed modal never has a selection, so a slot selected from the calendar always leads to a `POST` |

## Left out

- Cryptography: JWT signing and verification (RFC 7519) and bcrypt comparison are
  parameters, so token expiry and the secret are not modelled.
- Partial database failures: the store either answers every query of a request or none.
  A failure in the middle of a multi-query handler (for example between the itinerary
  insert and the activity inserts) is not modelled.
- Database rows are assumed well-formed: `permission.rules.rules` is a list of rules,
  each with a `roles` list. A malformed JSON column would throw and give the 500.
- The SELECT of `checkAccess` joins the school name; the decision does not read it, so
  it is not modelled.
- `Promise.all` in the itinerary routes runs the creates concurrently. The model runs them
  in list order: valid ones inserted, invalid ones skipped. Key order under real
  concurrency is not modelled.
- Login.CardEmailRows: the fallback query of `POST /login` joins `AccessCards` and
  `Accounts` without `ORDER BY`, so PostgreSQL does not promise the order of its rows.
  The model returns them card by card in table order. `Login.CardEmailFallback` and
  `Login.CardEmailRowsFirst` hold only for that order: when cards with the email belong
  to different accounts, which account `account.rows[0]` names is not determined by the
  code. `Login.CardEmailSameAccount` is the order-independent case.
- ItineraryRoutes.SortByCreated: itineraries with equal `createdAt` may come back in
  any order; the model fixes one.
- Route ids are integers. A non-numeric `:id` makes PostgreSQL reject the query (a 400
  or 500); that case is not modelled.
- The text of Sequelize validation errors is not modelled; every 400 of the itinerary
  routes is one `BadRequest` reply.
- `updatedAt` is not modelled; `createdAt` is the creation time passed in.
- Numerals.PgInteger: the `account_id` column is taken to be PostgreSQL's 4-byte
  `integer` (the type of a `SERIAL` key); `setup-database.sql`, which declares it, is not
  part of this model. A `bigint` column would accept a wider range. The input syntax is
  the one before PostgreSQL 16: the `0x`/`0o`/`0b` prefixes and `_` digit separators that
  version 16 accepts are rejected here.
- ItineraryRoutes.CreatedActivities: the activity objects of a request are modelled
  without an `id`. The handlers spread each object into `Activity.create`, so a client
  that sends an `id` has it inserted as given. A duplicate is a unique-key error and a
  400, and an id beyond the key sequence makes a later automatic key collide. The
  consecutive fresh keys, and the store invariant's bound on activity keys, hold only for
  requests whose activities carry no `id`. The calendar page never sends one.
- `server.js` mounts only `/api/auth` and `/api/access-cards`; nothing mounts
  `routes/itineraries.js`, so the calendar page's requests to `/api/itineraries` reach no
  handler in the server as shipped. The Calendar lemmas (`Calendar.Serve`) assume that
  router is mounted at `/api/itineraries`.
- Numerals.ParseInt: the JavaScript number's 53-bit precision is not modelled, so ids
  beyond 2^53 parse exactly in the model.
- Unicode: strings are sequences of characters; normalisation and UTF-16 surrogates
  play no part in the code modelled.
- The start page's `handleCardChange` is driven by a `<select>`. Only the card passed to
  it is modelled, not the `find` over the option value.
- React rendering, the calendar widget, the modal component and date-fns formatting and
  parsing (`new Date(string)`) are left out: dates are milliseconds and screens are
  datatypes.
- The calendar's `handleInputChange` and its start/end time inputs are plain field
  assignments on the form and are not modelled separately.
- Failed client requests only log to the console, so a failed submit or delete leaves
  the page state as it was. `fetchEvents` errors likewise keep the previous events.
- `server.js` wiring (CORS, JSON body parsing, listening, the database connection test),
  `setup-db.js`, and the client's `App.js`, `Home.js` and `About.js` are plumbing, static
  pages or local-storage session handling.
- 500 answers are one error reply per handler, without the logged error text. The
  itinerary routes' 500 on a failing read is not modelled, since the store model cannot
  fail.

## Findings

| source | as written | input that shows it | evidently intended | confidence | as-written member | corrected member |
|---|---|---|---|---|---|---|
| server.js:34 | `/api/start` is guarded by `checkAccess` but its path declares no `:type` or `:resource` segment. Both parameters are undefined and bound as SQL NULL, so `WHERE type = $1 AND resource = $2` matches no row | any request with a valid token, e.g. a global Admin whose permissions table has a ("start", "page") row admitting Admin | the route names the permission key it is guarded by, so permitted callers reach the handler | high, not executed | AccessCheck.StartRouteAsWritten (proved by AccessCheck.StartRouteNeverReachesHandler) | AccessCheck.ProtectedRoute (proved by AccessCheck.ProtectedRouteGrantsIff) |

=== FILE: access_cards_route.dfy ===
/** `GET /api/access-cards`: the caller's access cards, refused as a whole when a
    student card among them has no enrollment. */
module AccessCardsRoute {
  import opened Basics
  import opened Schema
  import Seqs
  import opened TokenAuth

  const InvalidCardsMessage := "Some student access cards have no enrollments"

  /** A row of the card query: the card, its school and the computed
      `has_valid_enrollment` column. */
  datatype CardView = CardView(
    id: int, email: string, role: string, global: bool,
    schoolName: Option<string>, logoUrl: Option<string>, hasValidEnrollment: bool)

  /** An element of the 400 reply's `invalidCards` list. */
  datatype InvalidCard = InvalidCard(email: string, school: Option<string>)

  /** The reply: the card rows (200), the invalid cards (400), or an error status. */
  datatype CardsResponse =
    | CardList(rows: seq<CardView>)
    | InvalidCards(error: string, invalid: seq<InvalidCard>)
    | CardsError(status: int, error: string)

  /** `SELECT COUNT(*) FROM enrollments e WHERE e.accesscard_id = $1`. */
  function EnrollmentCount(enrollments: seq<Enrollment>, cardId: int): nat {
    if |enrollments| == 0 then 0
    else (if enrollments[0].accessCardId == cardId then 1 else 0) + EnrollmentCount(enrollments[1..], cardId)
  }

  /** The count is positive exactly when some enrollment references the card. */
  lemma {:induction false} EnrollmentCountPositive(enrollments: seq<Enrollment>, cardId: int)
    ensures EnrollmentCount(enrollments, cardId) > 0 <==>
      exists k :: 0 <= k < |enrollments| && enrollments[k].accessCardId == cardId
    decreases |enrollments|
  {
    if |enrollments| > 0 {
      EnrollmentCountPositive(enrollments[1..], cardId);
      if exists k :: 0 <= k < |enrollments| && enrollments[k].accessCardId == cardId {
        var k :| 0 <= k < |enrollments| && enrollments[k].accessCardId == cardId;
        if k > 0 {
          assert enrollments[1..][k - 1] == enrollments[k];
        }
      }
      if EnrollmentCount(enrollments[1..], cardId) > 0 {
        var k :| 0 <= k < |enrollments[1..]| && enrollments[1..][k].accessCardId == cardId;
        assert enrollments[k + 1] == enrollments[1..][k];
      }
    }
  }

  /** The `has_valid_enrollment` column: `COUNT(*) > 0` for a Student card, `true` for
      every other role. */
  function HasValidEnrollment(card: AccessCard, enrollments: seq<Enrollment>): bool {
    if card.role == "Student" then EnrollmentCount(enrollments, card.id) > 0 else true
  }

  function CardViewOf(row: CardRow, enrollments: seq<Enrollment>): CardView {
    CardView(row.card.id, row.card.email, row.card.role, row.card.global,
             row.schoolName, row.logoUrl, HasValidEnrollment(row.card, enrollments))
  }

  /** The filter of the handler: a Student card without a valid enrollment. */
  predicate IsInvalid(v: CardView) {
    v.role == "Student" && !v.hasValidEnrollment
  }

  /** A card is invalid exactly when it is a Student card that no enrollment references. */
  lemma InvalidIff(row: CardRow, enrollments: seq<Enrollment>)
    ensures IsInvalid(CardViewOf(row, enrollments)) <==>
      row.card.role == "Student" &&
      forall k :: 0 <= k < |enrollments| ==> enrollments[k].accessCardId != row.card.id
  {
    EnrollmentCountPositive(enrollments, row.card.id);
  }

  function Project(v: CardView): InvalidCard {
    InvalidCard(v.email, v.schoolName)
  }

  /** The rows the query returns for the caller's account. */
  function ViewsOf(t: Tables, userId: int): (r: seq<CardView>)
    ensures |r| == |CardsOf(t.cards, userId)|
    ensures forall i :: 0 <= i < |r| ==>
      r[i] == CardViewOf(JoinSchool(CardsOf(t.cards, userId)[i], t.schools), t.enrollments)
  {
    Seqs.Map((row: CardRow) => CardViewOf(row, t.enrollments), CardRowsOf(t, userId))
  }

  /** The handler behind `authenticateToken`, for the user `req.user.id`. */
  function ListCards(userId: int, db: Fetch<Tables>): (r: CardsResponse)
    ensures db.StoreFailure? <==> r == CardsError(500, InternalErrorMessage)
    ensures db.Fetched? ==> !r.CardsError?
    ensures db.Fetched? ==>
      (r.CardList? <==> forall i :: 0 <= i < |ViewsOf(db.rows, userId)| ==> !IsInvalid(ViewsOf(db.rows, userId)[i]))
    ensures r.CardList? ==> r.rows == ViewsOf(db.rows, userId)
    ensures r.InvalidCards? ==> r.error == InvalidCardsMessage && |r.invalid| > 0
  {
    match db
    case StoreFailure => CardsError(500, InternalErrorMessage)
    case Fetched(t) =>
      var views := ViewsOf(t, userId);
      var invalid := Seqs.Filter(IsInvalid, views);
      if |invalid| > 0 then
        InvalidCards(InvalidCardsMessage, Seqs.Map(Project, invalid))
      else
        assert forall i :: 0 <= i < |views| ==> !IsInvalid(views[i]) by {
          forall i | 0 <= i < |views|
            ensures !IsInvalid(views[i])
          {
            assert views[i] in views;
          }
        }
        CardList(views)
  }

  /** `out` is the projection of the views at the positions `ix`, in that order. */
  ghost predicate ProjectedAt(ix: seq<int>, views: seq<CardView>, out: seq<InvalidCard>) {
    |ix| == |out| && forall k :: 0 <= k < |ix| ==> 0 <= ix[k] < |views| && out[k] == Project(views[ix[k]])
  }

  /** The `invalidCards` list is exactly the caller's invalid cards, projected to email
      and school, in the order of the query: one entry per invalid card. */
  lemma InvalidCardsExact(userId: int, t: Tables)
    requires ListCards(userId, Fetched(t)).InvalidCards?
    ensures exists ix ::
      Seqs.Positions(ix, IsInvalid, ViewsOf(t, userId)) &&
      ProjectedAt(ix, ViewsOf(t, userId), ListCards(userId, Fetched(t)).invalid)
    ensures forall x :: x in ListCards(userId, Fetched(t)).invalid <==>
      exists v :: v in ViewsOf(t, userId) && IsInvalid(v) && Project(v) == x
  {
    var views := ViewsOf(t, userId);
    assert ListCards(userId, Fetched(t)).invalid == Seqs.Map(Project, Seqs.Filter(IsInvalid, views));
    ProjectedPositions(views);
    ProjectedMembers(views);
  }

  /** The projected invalid views are the projections at the invalid positions. */
  lemma ProjectedPositions(views: seq<CardView>)
    ensures exists ix ::
      Seqs.Positions(ix, IsInvalid, views) &&
      ProjectedAt(ix, views, Seqs.Map(Project, Seqs.Filter(IsInvalid, views)))
  {
    var invalid := Seqs.Filter(IsInvalid, views);
    Seqs.FilterPositions(IsInvalid, views);
    var ix :| Seqs.Positions(ix, IsInvalid, views) && Seqs.ElementsAt(ix, views, invalid);
    assert ProjectedAt(ix, views, Seqs.Map(Project, invalid));
  }

  /** An entry of the projected invalid views is the projection of some invalid view. */
  lemma ProjectedMembers(views: seq<CardView>)
    ensures forall x :: x in Seqs.Map(Project, Seqs.Filter(IsInvalid, views)) <==>
      exists v :: v in views && IsInvalid(v) && Project(v) == x
  {
    var invalid := Seqs.Filter(IsInvalid, views);
    var out := Seqs.Map(Project, invalid);
    forall x | x in out
      ensures exists v :: v in views && IsInvalid(v) && Project(v) == x
    {
      var k :| 0 <= k < |out| && out[k] == x;
      assert invalid[k] in invalid;
    }
    forall v | v in views && IsInvalid(v)
      ensures Project(v) in out
    {
      assert v in invalid;
      var k :| 0 <= k < |invalid| && invalid[k] == v;
      assert out[k] == Project(v);
    }
  }

  /** A Student card that no enrollment references. */
  ghost predicate UnenrolledStudent(c: AccessCard, enrollments: seq<Enrollment>) {
    c.role == "Student" && forall k :: 0 <= k < |enrollments| ==> enrollments[k].accessCardId != c.id
  }

  /** The view at a position is the joined row of the caller's card at that position. */
  lemma ViewAt(t: Tables, userId: int, i: nat)
    requires i < |ViewsOf(t, userId)|
    ensures ViewsOf(t, userId)[i] == CardViewOf(JoinSchool(CardsOf(t.cards, userId)[i], t.schools), t.enrollments)
  {
  }

  /** An entry of the projected invalid views is the (email, school) of an unenrolled
      Student card of the caller. */
  lemma InvalidEntryOfCard(userId: int, t: Tables, x: InvalidCard)
    requires x in Seqs.Map(Project, Seqs.Filter(IsInvalid, ViewsOf(t, userId)))
    ensures exists i ::
      (&& 0 <= i < |CardsOf(t.cards, userId)|
       && UnenrolledStudent(CardsOf(t.cards, userId)[i], t.enrollments)
       && x == InvalidCard(CardsOf(t.cards, userId)[i].email, JoinSchool(CardsOf(t.cards, userId)[i], t.schools).schoolName))
  {
    var views := ViewsOf(t, userId);
    var invalid := Seqs.Filter(IsInvalid, views);
    var out := Seqs.Map(Project, invalid);
    var k :| 0 <= k < |out| && out[k] == x;
    var v := invalid[k];
    assert v in invalid;
    var i :| 0 <= i < |views| && views[i] == v;
    var c := CardsOf(t.cards, userId)[i];
    ViewAt(t, userId, i);
    InvalidIff(JoinSchool(c, t.schools), t.enrollments);
    assert UnenrolledStudent(c, t.enrollments);
  }

  /** Every entry of `invalidCards` is the (email, school) of a Student card of the caller
      that no enrollment references: non-Student cards never appear. */
  lemma InvalidCardsAreStudents(userId: int, t: Tables, x: InvalidCard)
    requires ListCards(userId, Fetched(t)).InvalidCards?
    requires x in ListCards(userId, Fetched(t)).invalid
    ensures exists i ::
      (&& 0 <= i < |CardsOf(t.cards, userId)|
       && UnenrolledStudent(CardsOf(t.cards, userId)[i], t.enrollments)
       && x == InvalidCard(CardsOf(t.cards, userId)[i].email, JoinSchool(CardsOf(t.cards, userId)[i], t.schools).schoolName))
  {
    InvalidCardsExact(userId, t);
    InvalidEntryOfCard(userId, t, x);
  }

  /** `GET /api/access-cards` as mounted. `authenticateToken` runs twice, once in the
      mount and once in the router, before the handler; since verification is a
      function of the header, the second run repeats the outcome of the first, so one
      run is modelled. */
  function GetAccessCards(header: Option<string>, verify: string -> Option<Payload>, db: Fetch<Tables>): (r: CardsResponse)
    ensures AuthenticateToken(header, verify).TokenRejected? ==>
      r == CardsError(AuthenticateToken(header, verify).status, AuthenticateToken(header, verify).error)
    ensures AuthenticateToken(header, verify).Authenticated? ==>
      r == ListCards(AuthenticateToken(header, verify).user.id, db)
  {
    match AuthenticateToken(header, verify)
    case TokenRejected(status, error) => CardsError(status, error)
    case Authenticated(user) => ListCards(user.id, db)
  }

  /** All or nothing: a caller holding one Student card without enrollment gets the 400,
      never the card list, whatever other cards they hold. */
  lemma OneInvalidCardRefusesAll(userId: int, t: Tables, c: AccessCard)
    requires c in t.cards && c.accountId == userId && c.role == "Student"
    requires forall k :: 0 <= k < |t.enrollments| ==> t.enrollments[k].accessCardId != c.id
    ensures ListCards(userId, Fetched(t)).InvalidCards?
    ensures InvalidCard(c.email, JoinSchool(c, t.schools).schoolName) in ListCards(userId, Fetched(t)).invalid
  {
    var cards := CardsOf(t.cards, userId);
    assert c in cards;
    var i :| 0 <= i < |cards| && cards[i] == c;
    var views := ViewsOf(t, userId);
    var row := CardRowsOf(t, userId)[i];
    assert row == JoinSchool(c, t.schools);
    InvalidIff(row, t.enrollments);
    assert views[i] == CardViewOf(row, t.enrollments);
    assert IsInvalid(views[i]);
    InvalidCardsExact(userId, t);
    assert views[i] in views;
  }
}

=== FILE: access_check.dfy ===
/** The `checkAccess` middleware: the caller's access cards are checked against the rules
    of the permission row for the requested (type, resource), and the composition of
    `authenticateToken` with `checkAccess` that guards a route. */
module AccessCheck {
  import opened Basics
  import opened Schema
  import Seqs
  import opened TokenAuth

  const NoPermissionMessage := "No permission found for this resource"
  const AccessDeniedMessage := "Access denied"

  /** `next()` is called (`Granted`), or the middleware answers with a status and message. */
  datatype AccessOutcome = Granted | Denied(status: int, error: string)

  /** A rule admits a role when its condition kind is `roles` and the role is in its list;
      a rule of any other kind admits nobody. */
  predicate RuleAdmits(rule: Rule, role: string) {
    rule.condition == "roles" && role in rule.roles
  }

  /** `rules.some(rule => …)` for one card: some rule admits the card's role. */
  function CardSatisfies(card: AccessCard, rules: seq<Rule>): bool {
    |rules| > 0 && (RuleAdmits(rules[0], card.role) || CardSatisfies(card, rules[1..]))
  }

  /** `accessCards.some(card => rules.some(…))`: the evaluation `checkAccess` performs. */
  function HasAccess(cards: seq<AccessCard>, rules: seq<Rule>): bool {
    |cards| > 0 && (CardSatisfies(cards[0], rules) || HasAccess(cards[1..], rules))
  }

  /** The meaning of the evaluation: some card and some rule with the rule admitting the
      card's role. */
  ghost predicate Admitted(cards: seq<AccessCard>, rules: seq<Rule>) {
    exists i, j :: 0 <= i < |cards| && 0 <= j < |rules| && RuleAdmits(rules[j], cards[i].role)
  }

  lemma {:induction false} CardSatisfiesIff(card: AccessCard, rules: seq<Rule>)
    ensures CardSatisfies(card, rules) <==> exists j :: 0 <= j < |rules| && RuleAdmits(rules[j], card.role)
    decreases |rules|
  {
    if |rules| > 0 {
      CardSatisfiesIff(card, rules[1..]);
      if exists j :: 0 <= j < |rules| && RuleAdmits(rules[j], card.role) {
        var j :| 0 <= j < |rules| && RuleAdmits(rules[j], card.role);
        if j > 0 {
          assert rules[1..][j - 1] == rules[j];
        }
      }
      if CardSatisfies(card, rules[1..]) {
        var j :| 0 <= j < |rules[1..]| && RuleAdmits(rules[1..][j], card.role);
        assert rules[j + 1] == rules[1..][j];
      }
    }
  }

  /** Access is granted exactly when some card's role is admitted by some rule. */
  lemma {:induction false} HasAccessIff(cards: seq<AccessCard>, rules: seq<Rule>)
    ensures HasAccess(cards, rules) <==> Admitted(cards, rules)
    decreases |cards|
  {
    if |cards| > 0 {
      HasAccessIff(cards[1..], rules);
      CardSatisfiesIff(cards[0], rules);
      if Admitted(cards, rules) {
        var i, j :| 0 <= i < |cards| && 0 <= j < |rules| && RuleAdmits(rules[j], cards[i].role);
        if i > 0 {
          assert cards[1..][i - 1] == cards[i];
        }
      }
      if HasAccess(cards[1..], rules) {
        var i, j :| 0 <= i < |cards[1..]| && 0 <= j < |rules| && RuleAdmits(rules[j], cards[1..][i].role);
        assert cards[i + 1] == cards[1..][i];
      }
    }
  }

  /** More cards or more rules never turn a grant into a denial; fewer never turn a denial
      into a grant. */
  lemma HasAccessMonotone(cards: seq<AccessCard>, rules: seq<Rule>, cards': seq<AccessCard>, rules': seq<Rule>)
    requires forall c :: c in cards ==> c in cards'
    requires forall r :: r in rules ==> r in rules'
    ensures HasAccess(cards, rules) ==> HasAccess(cards', rules')
  {
    HasAccessIff(cards, rules);
    HasAccessIff(cards', rules');
    if HasAccess(cards, rules) {
      var i, j :| 0 <= i < |cards| && 0 <= j < |rules| && RuleAdmits(rules[j], cards[i].role);
      assert cards[i] in cards' && rules[j] in rules';
      var i' :| 0 <= i' < |cards'| && cards'[i'] == cards[i];
      var j' :| 0 <= j' < |rules'| && rules'[j'] == rules[j];
      assert RuleAdmits(rules'[j'], cards'[i'].role);
    }
  }

  /** Rules whose condition kind is not `roles` never grant, whatever the cards; with no
      cards or no rules at all access is denied. */
  lemma OnlyRolesRulesGrant(cards: seq<AccessCard>, rules: seq<Rule>)
    ensures (forall j :: 0 <= j < |rules| ==> rules[j].condition != "roles") ==> !HasAccess(cards, rules)
    ensures !HasAccess([], rules) && !HasAccess(cards, [])
  {
    HasAccessIff(cards, rules);
    HasAccessIff(cards, []);
  }

  /** `WHERE type = $1 AND resource = $2`. An absent route parameter is bound as SQL NULL,
      and `NULL = x` holds for no row. */
  predicate KeyMatches(p: Permission, kind: Option<string>, resource: Option<string>) {
    kind == Some(p.kind) && resource == Some(p.resource)
  }

  /** `permissionResult.rows[0]`: the first permission row with the requested key. */
  function PermissionFor(permissions: seq<Permission>, kind: Option<string>, resource: Option<string>): (r: Option<Permission>)
    ensures r.Some? ==> r.value in permissions && KeyMatches(r.value, kind, resource)
    ensures r.None? <==> forall i :: 0 <= i < |permissions| ==> !KeyMatches(permissions[i], kind, resource)
  {
    Seqs.Find((p: Permission) => KeyMatches(p, kind, resource), permissions)
  }

  /** When several rows share a key, only the first one's rules are used. */
  lemma FirstPermissionRowUsed(permissions: seq<Permission>, kind: Option<string>, resource: Option<string>, i: nat)
    requires i < |permissions| && KeyMatches(permissions[i], kind, resource)
    requires forall j :: 0 <= j < i ==> !KeyMatches(permissions[j], kind, resource)
    ensures PermissionFor(permissions, kind, resource) == Some(permissions[i])
  {
    Seqs.FindIsFirst((p: Permission) => KeyMatches(p, kind, resource), permissions, i);
  }

  /** `checkAccess` for the user `userId` (`req.user.id`) and the route parameters `type`
      and `resource`. */
  function CheckAccess(kind: Option<string>, resource: Option<string>, userId: int, db: Fetch<Tables>): (r: AccessOutcome)
    ensures r == Denied(500, InternalErrorMessage) <==> db.StoreFailure?
    ensures db.Fetched? && PermissionFor(db.rows.permissions, kind, resource).None? ==>
      r == Denied(403, NoPermissionMessage)
    ensures && db.Fetched? && PermissionFor(db.rows.permissions, kind, resource).Some?
            && !Admitted(CardsOf(db.rows.cards, userId), PermissionFor(db.rows.permissions, kind, resource).value.rules) ==>
      r == Denied(403, AccessDeniedMessage)
    ensures r == Granted <==>
      && db.Fetched?
      && PermissionFor(db.rows.permissions, kind, resource).Some?
      && Admitted(CardsOf(db.rows.cards, userId), PermissionFor(db.rows.permissions, kind, resource).value.rules)
    ensures r.Denied? ==>
      r in {Denied(403, NoPermissionMessage), Denied(403, AccessDeniedMessage), Denied(500, InternalErrorMessage)}
  {
    match db
    case StoreFailure => Denied(500, InternalErrorMessage)
    case Fetched(t) =>
      var cards := CardsOf(t.cards, userId);
      match PermissionFor(t.permissions, kind, resource)
      case None => Denied(403, NoPermissionMessage)
      case Some(p) =>
        HasAccessIff(cards, p.rules);
        if HasAccess(cards, p.rules) then Granted else Denied(403, AccessDeniedMessage)
  }

  /** Adding access cards to the table never turns a grant into a denial: the caller's own
      cards only grow. */
  lemma CheckAccessMonotone(kind: Option<string>, resource: Option<string>, userId: int, t: Tables, t': Tables)
    requires t'.permissions == t.permissions
    requires forall c :: c in t.cards ==> c in t'.cards
    ensures CheckAccess(kind, resource, userId, Fetched(t)) == Granted ==>
      CheckAccess(kind, resource, userId, Fetched(t')) == Granted
  {
    var cards := CardsOf(t.cards, userId);
    var cards' := CardsOf(t'.cards, userId);
    match PermissionFor(t.permissions, kind, resource)
    case None =>
    case Some(p) =>
      HasAccessIff(cards, p.rules);
      HasAccessIff(cards', p.rules);
      HasAccessMonotone(cards, p.rules, cards', p.rules);
  }

  /** Cards of other accounts never influence the decision. */
  lemma OtherAccountsIrrelevant(kind: Option<string>, resource: Option<string>, userId: int, t: Tables, other: AccessCard)
    requires other.accountId != userId
    ensures CheckAccess(kind, resource, userId, Fetched(t.(cards := t.cards + [other]))) ==
      CheckAccess(kind, resource, userId, Fetched(t))
  {
    var p := (c: AccessCard) => c.accountId == userId;
    Seqs.FilterAppend(p, t.cards, [other]);
    assert Seqs.Filter(p, [other]) == [];
    assert CardsOf(t.cards + [other], userId) == CardsOf(t.cards, userId);
  }

  /** The answer to a request on a guarded route: the route handler runs with the verified
      claims, or the request is answered by one of the two middlewares. */
  datatype RouteOutcome = HandlerReached(user: Payload) | Refused(status: int, error: string)

  /** `authenticateToken` followed by `checkAccess`. */
  function Gate(kind: Option<string>, resource: Option<string>, header: Option<string>,
                verify: string -> Option<Payload>, db: Fetch<Tables>): (r: RouteOutcome)
    ensures r.HandlerReached? <==>
      && AuthenticateToken(header, verify).Authenticated?
      && CheckAccess(kind, resource, AuthenticateToken(header, verify).user.id, db) == Granted
    ensures r.HandlerReached? ==> r.user == AuthenticateToken(header, verify).user
    ensures AuthenticateToken(header, verify).TokenRejected? ==>
      r == Refused(AuthenticateToken(header, verify).status, AuthenticateToken(header, verify).error)
  {
    match AuthenticateToken(header, verify)
    case TokenRejected(status, error) => Refused(status, error)
    case Authenticated(user) =>
      match CheckAccess(kind, resource, user.id, db)
      case Granted => HandlerReached(user)
      case Denied(status, error) => Refused(status, error)
  }

  /** `app.get('/api/start', authenticateToken, checkAccess, …)` as the server declares it:
      the path has no `:type` or `:resource` segment, so both parameters are absent. */
  function StartRouteAsWritten(header: Option<string>, verify: string -> Option<Payload>, db: Fetch<Tables>): RouteOutcome {
    Gate(None, None, header, verify, db)
  }

  /** The start route can never reach its handler: with a valid token and a reachable
      database every caller gets the missing-permission 403. */
  lemma StartRouteNeverReachesHandler(header: Option<string>, verify: string -> Option<Payload>, db: Fetch<Tables>)
    ensures !StartRouteAsWritten(header, verify, db).HandlerReached?
    ensures AuthenticateToken(header, verify).Authenticated? && db.Fetched? ==>
      StartRouteAsWritten(header, verify, db) == Refused(403, NoPermissionMessage)
  {
    if db.Fetched? {
      assert PermissionFor(db.rows.permissions, None, None).None?;
    }
  }

  /** A route guarded by the permission row with key (`kind`, `resource`), the key being
      supplied by the route. */
  function ProtectedRoute(kind: string, resource: string, header: Option<string>,
                          verify: string -> Option<Payload>, db: Fetch<Tables>): RouteOutcome {
    Gate(Some(kind), Some(resource), header, verify, db)
  }

  /** The first permission row with key (`kind`, `resource`) sits at index `i`. */
  ghost predicate FirstRowFor(permissions: seq<Permission>, kind: string, resource: string, i: int) {
    && 0 <= i < |permissions|
    && permissions[i].kind == kind && permissions[i].resource == resource
    && forall j :: 0 <= j < i ==> !(permissions[j].kind == kind && permissions[j].resource == resource)
  }

  /** A keyed route runs its handler exactly when the header carries a token the verifier
      accepts and the first permission row for the key admits one of the user's cards. */
  lemma ProtectedRouteGrantsIff(kind: string, resource: string, header: Option<string>,
                                verify: string -> Option<Payload>, db: Fetch<Tables>)
    ensures ProtectedRoute(kind, resource, header, verify, db).HandlerReached? <==>
      && ExtractToken(header).Some?
      && verify(ExtractToken(header).value).Some?
      && db.Fetched?
      && exists i :: FirstRowFor(db.rows.permissions, kind, resource, i)
           && Admitted(CardsOf(db.rows.cards, verify(ExtractToken(header).value).value.id),
                       db.rows.permissions[i].rules)
  {
    if ExtractToken(header).Some? && verify(ExtractToken(header).value).Some? && db.Fetched? {
      var ps := db.rows.permissions;
      var found := PermissionFor(ps, Some(kind), Some(resource));
      if found.Some? {
        var k := FirstIndexOf(ps, kind, resource);
        FirstPermissionRowUsed(ps, Some(kind), Some(resource), k);
      }
      forall i | FirstRowFor(ps, kind, resource, i)
        ensures found == Some(ps[i])
      {
        FirstPermissionRowUsed(ps, Some(kind), Some(resource), i);
      }
    }
  }

  /** The position of the first permission row with a key that some row has. */
  lemma FirstIndexOf(permissions: seq<Permission>, kind: string, resource: string) returns (k: nat)
    requires exists i :: 0 <= i < |permissions| && KeyMatches(permissions[i], Some(kind), Some(resource))
    ensures FirstRowFor(permissions, kind, resource, k)
  {
    var i :| 0 <= i < |permissions| && KeyMatches(permissions[i], Some(kind), Some(resource));
    k := i;
    while exists j :: 0 <= j < k && KeyMatches(permissions[j], Some(kind), Some(resource))
      invariant k < |permissions| && KeyMatches(permissions[k], Some(kind), Some(resource))
      decreases k
    {
      var j :| 0 <= j < k && KeyMatches(permissions[j], Some(kind), Some(resource));
      k := j;
    }
  }

  // ---------------------------------------------------------------------------------
  // Concrete decisions

  const StartRule := Rule("roles", ["Admin", "Instructor"])

  function Card(id: int, role: string, global: bool, school: Option<int>): AccessCard {
    AccessCard(id, 1, "user@school.example", role, global, school)
  }

  function TablesWith(cards: seq<AccessCard>, permissions: seq<Permission>): Tables {
    Tables([], [], cards, [], permissions)
  }

  /** A global Admin card passes a rule admitting Admin and Instructor. */
  lemma GlobalAdminGranted()
    ensures CheckAccess(Some("start"), Some("page"), 1,
      Fetched(TablesWith([Card(1, "Admin", true, None)], [Permission("start", "page", [StartRule])]))) == Granted
  {
    var cards := [Card(1, "Admin", true, None)];
    assert CardsOf(cards, 1) == cards by {
      Seqs.FilterKeepsAll((c: AccessCard) => c.accountId == 1, cards);
    }
    assert RuleAdmits(StartRule, "Admin");
  }

  /** A lone Student card is refused by that rule. */
  lemma StudentRefused()
    ensures CheckAccess(Some("start"), Some("page"), 1,
      Fetched(TablesWith([Card(1, "Student", false, Some(7))], [Permission("start", "page", [StartRule])]))) ==
      Denied(403, AccessDeniedMessage)
  {
    var cards := [Card(1, "Student", false, Some(7))];
    HasAccessIff(CardsOf(cards, 1), [StartRule]);
    assert !RuleAdmits(StartRule, "Student");
  }

  /** A key with no permission row is refused with its own message. */
  lemma UnconfiguredResourceRefused()
    ensures CheckAccess(Some("reports"), Some("financial"), 1,
      Fetched(TablesWith([Card(1, "Admin", true, None)], [Permission("start", "page", [StartRule])]))) ==
      Denied(403, NoPermissionMessage)
  {
    assert !KeyMatches(Permission("start", "page", [StartRule]), Some("reports"), Some("financial"));
  }

  /** One admitted card among several suffices. */
  lemma AnyCardSuffices()
    ensures CheckAccess(Some("start"), Some("page"), 1,
      Fetched(TablesWith([Card(1, "Student", false, Some(7)), Card(2, "Instructor", false, Some(8))],
                         [Permission("start", "page", [Rule("roles", ["Instructor"])])]))) == Granted
  {
    var cards := [Card(1, "Student", false, Some(7)), Card(2, "Instructor", false, Some(8))];
    Seqs.FilterKeepsAll((c: AccessCard) => c.accountId == 1, cards);
    assert RuleAdmits(Rule("roles", ["Instructor"]), cards[1].role);
  }

  /** The decision ignores enrollments: a Student card with none, which the access-card
      listing reports as invalid, is still granted by a rule admitting Student. */
  lemma UnenrolledStudentGranted()
    ensures CheckAccess(Some("start"), Some("page"), 1,
      Fetched(TablesWith([Card(1, "Student", false, Some(7))], [Permission("start", "page", [Rule("roles", ["Student"])])]))) ==
      Granted
  {
    var cards := [Card(1, "Student", false, Some(7))];
    Seqs.FilterKeepsAll((c: AccessCard) => c.accountId == 1, cards);
    assert RuleAdmits(Rule("roles", ["Student"]), "Student");
  }
}

=== FILE: basics.dfy ===
/** Small sum types shared by every module of the portal model, and the reply text the
    server's handlers share. */
module Basics {

  /** The message of the 500 reply of `checkAccess` and of the card list. */
  const InternalErrorMessage := "Internal server error"

  /** A value that may be absent: JavaScript `undefined`/`null`, or an SQL NULL column. */
  datatype Option<+T> = None | Some(value: T)

  /** The outcome of reading the database: the rows it returned, or a failure of the store
      (connection refused, query error). The handlers turn a failure into a 500 reply. */
  datatype Fetch<+T> = Fetched(rows: T) | StoreFailure
}

=== FILE: calendar.dfy ===
/** The calendar page: the itineraries the server lists become calendar events, one per
    activity, and the modal's submit and delete buttons choose the request sent back. */
module Calendar {
  import opened Basics
  import Seqs
  import opened ItineraryModel
  import opened ItineraryRoutes

  /** Every event lasts one hour. */
  const HourMillis := 60 * 60 * 1000

  /** A calendar event: an activity with its parent itinerary's key. */
  datatype Event = Event(
    id: int, title: string, start: int, end: int,
    desc: Option<string>, location: Option<string>, itineraryId: int)

  /** The event of activity `a` of itinerary `it`. */
  function EventOf(it: Itinerary, a: Activity): (e: Event)
    ensures e.id == a.id && e.title == a.name && e.start == a.date && e.end == a.date + HourMillis
    ensures e.desc == a.notes && e.location == a.location && e.itineraryId == it.id
  {
    Event(a.id, a.name, a.date, a.date + HourMillis, a.notes, a.location, it.id)
  }

  /** The events of one itinerary, in the order of its activities. */
  function EventsOf(v: ItineraryView): seq<Event> {
    Seqs.Map((a: Activity) => EventOf(v.itinerary, a), v.activities)
  }

  function TotalActivities(views: seq<ItineraryView>): nat {
    if |views| == 0 then 0 else |views[0].activities| + TotalActivities(views[1..])
  }

  /** `fetchEvents`: `flatMap` over the listed itineraries of `map` over their activities. */
  function Flatten(views: seq<ItineraryView>): (r: seq<Event>)
    ensures |r| == TotalActivities(views)
    ensures forall k :: 0 <= k < |r| ==> r[k].end == r[k].start + HourMillis
  {
    if |views| == 0 then [] else EventsOf(views[0]) + Flatten(views[1..])
  }

  /** Flattening distributes over concatenation, so the events come itinerary by
      itinerary, and within one itinerary in activity order. */
  lemma {:induction false} FlattenAppend(a: seq<ItineraryView>, b: seq<ItineraryView>)
    ensures Flatten(a + b) == Flatten(a) + Flatten(b)
    decreases |a|
  {
    if |a| == 0 {
      assert a + b == b;
    } else {
      assert (a + b)[1..] == a[1..] + b;
      FlattenAppend(a[1..], b);
    }
  }

  /** The event of activity `k` of view `i` is among the flattened events. */
  lemma {:induction false} FlattenHas(views: seq<ItineraryView>, i: nat, k: nat)
    requires i < |views| && k < |views[i].activities|
    ensures EventOf(views[i].itinerary, views[i].activities[k]) in Flatten(views)
    decreases i
  {
    if i == 0 {
      assert EventsOf(views[0])[k] == EventOf(views[0].itinerary, views[0].activities[k]);
    } else {
      assert views[1..][i - 1] == views[i];
      FlattenHas(views[1..], i - 1, k);
    }
  }

  /** Each flattened event is the event of some activity of some view. */
  lemma {:induction false} FlattenSource(views: seq<ItineraryView>, e: Event) returns (i: nat, k: nat)
    requires e in Flatten(views)
    ensures i < |views| && k < |views[i].activities| && e == EventOf(views[i].itinerary, views[i].activities[k])
    decreases |views|
  {
    var here := EventsOf(views[0]);
    if e in here {
      var j :| 0 <= j < |here| && here[j] == e;
      i, k := 0, j;
    } else {
      var i', k' := FlattenSource(views[1..], e);
      assert views[1..][i'] == views[i' + 1];
      i, k := i' + 1, k';
    }
  }

  /** An event is shown exactly when it is the event of some activity of some listed
      itinerary. */
  lemma FlattenMembers(views: seq<ItineraryView>, e: Event)
    ensures e in Flatten(views) <==>
      exists i, k :: 0 <= i < |views| && 0 <= k < |views[i].activities| &&
        e == EventOf(views[i].itinerary, views[i].activities[k])
  {
    if e in Flatten(views) {
      var i, k := FlattenSource(views, e);
    }
    if exists i, k :: 0 <= i < |views| && 0 <= k < |views[i].activities| &&
         e == EventOf(views[i].itinerary, views[i].activities[k]) {
      var i, k :| 0 <= i < |views| && 0 <= k < |views[i].activities| &&
        e == EventOf(views[i].itinerary, views[i].activities[k]);
      FlattenHas(views, i, k);
    }
  }

  /** The events the page shows for a store. */
  function EventsFor(s: Store): seq<Event> {
    Flatten(ListAll(s).views)
  }

  /** Each itinerary of the store is listed in some view. */
  lemma ListedAt(s: Store, it: Itinerary) returns (i: nat)
    requires it in s.itineraries
    ensures i < |ListAll(s).views| && ListAll(s).views[i].itinerary == it
  {
    var views := ListAll(s).views;
    var its := ItinerariesOf(views);
    assert multiset(its) == multiset(s.itineraries);
    assert it in multiset(its);
    var j :| 0 <= j < |its| && its[j] == it;
    i := j;
  }

  /** Every activity of a valid store is shown as its event, tagged with its itinerary. */
  lemma EveryActivityShown(s: Store, a: Activity)
    requires Valid(s) && a in s.activities
    ensures exists e :: (e in EventsFor(s) &&
      e.id == a.id && e.title == a.name && e.start == a.date && e.itineraryId == a.itineraryId)
  {
    var views := ListAll(s).views;
    var it :| it in s.itineraries && it.id == a.itineraryId;
    var i := ListedAt(s, it);
    assert views[i].activities == ActivitiesOf(s, it.id);
    assert a in views[i].activities;
    var k :| 0 <= k < |views[i].activities| && views[i].activities[k] == a;
    FlattenMembers(views, EventOf(it, a));
    assert EventOf(it, a) in EventsFor(s);
  }

  /** An event flattened from views that carry the store's activities comes from an
      activity of the store. */
  lemma {:induction false} FlattenedFromStore(s: Store, views: seq<ItineraryView>, e: Event)
    requires forall i :: 0 <= i < |views| ==> views[i].activities == ActivitiesOf(s, views[i].itinerary.id)
    requires e in Flatten(views)
    ensures exists a :: (a in s.activities &&
      e.id == a.id && e.title == a.name && e.start == a.date && e.end == a.date + HourMillis &&
      e.desc == a.notes && e.location == a.location && e.itineraryId == a.itineraryId)
  {
    FlattenMembers(views, e);
    var i, k :| 0 <= i < |views| && 0 <= k < |views[i].activities| &&
      e == EventOf(views[i].itinerary, views[i].activities[k]);
    var a := views[i].activities[k];
    assert a in ActivitiesOf(s, views[i].itinerary.id);
    assert a in s.activities && e.itineraryId == a.itineraryId;
  }

  /** Every shown event is the event of an activity of the store, with that activity's
      itinerary key. */
  lemma EveryEventFromStore(s: Store, e: Event)
    requires e in EventsFor(s)
    ensures exists a :: (a in s.activities &&
      e.id == a.id && e.title == a.name && e.start == a.date && e.end == a.date + HourMillis &&
      e.desc == a.notes && e.location == a.location && e.itineraryId == a.itineraryId)
  {
    FlattenedFromStore(s, ListAll(s).views, e);
  }

  // ---------------------------------------------------------------------------------
  // The modal

  /** The form's fields; times are milliseconds. */
  datatype Form = Form(
    title: string, description: string, start: int, end: int, location: string, notes: string)

  /** The page's state: the clicked event, whether the modal is open, the form. */
  datatype Ui = Ui(events: seq<Event>, selected: Option<Event>, modalOpen: bool, form: Form)

  /** `x || ''` on an optional text. */
  function OrEmpty(x: Option<string>): (r: string)
    ensures x.Some? ==> r == x.value
    ensures x.None? ==> r == ""
  {
    if x.Some? then x.value else ""
  }

  /** The form filled from a clicked event: description and notes both come from `desc`. */
  function FormOf(e: Event): (f: Form)
    ensures f.title == e.title && f.start == e.start && f.end == e.end
    ensures f.description == OrEmpty(e.desc) && f.notes == OrEmpty(e.desc)
    ensures f.location == OrEmpty(e.location)
  {
    Form(e.title, OrEmpty(e.desc), e.start, e.end, OrEmpty(e.location), OrEmpty(e.desc))
  }

  /** `handleEventClick`. */
  function HandleEventClick(ui: Ui, e: Event): (r: Ui)
    ensures r.selected == Some(e) && r.modalOpen && r.form == FormOf(e) && r.events == ui.events
  {
    ui.(selected := Some(e), modalOpen := true, form := FormOf(e))
  }

  /** `handleSelect` on a slot from `start` to `end`: a blank form. The selection is left
      as it is. */
  function HandleSelectSlot(ui: Ui, start: int, end: int): (r: Ui)
    ensures r.modalOpen && r.selected == ui.selected && r.events == ui.events
    ensures r.form == Form("", "", start, end, "", "")
  {
    ui.(modalOpen := true, form := Form("", "", start, end, "", ""))
  }

  /** The `×` button and `onRequestClose`. */
  function CloseModal(ui: Ui): (r: Ui)
    ensures !r.modalOpen && r.selected.None? && r.form == ui.form && r.events == ui.events
  {
    ui.(modalOpen := false, selected := None)
  }

  /** The requests the page sends. */
  datatype Request =
    | PutItinerary(id: int, input: ItineraryInput, activities: Field<seq<ActivityInput>>)
    | PostItinerary(input: ItineraryInput, activities: Field<seq<ActivityInput>>)
    | DeleteItinerary(id: int)

  /** `activityData`: the activity the form describes. */
  function ActivityData(f: Form): (a: ActivityInput)
    ensures a.name == Given(f.title) && a.date == Given(f.start)
    ensures a.location == Given(f.location) && a.notes == Given(f.notes)
  {
    ActivityInput(Given(f.title), Given(f.start), Given(f.location), Given(f.notes))
  }

  /** `handleSubmit`: with a selected event, a `PUT` of its itinerary carrying only a
      one-element activity list; otherwise a `POST` of a new itinerary with that one
      activity. */
  function SubmitRequest(ui: Ui): (r: Request)
    ensures ui.selected.Some? <==> r.PutItinerary?
    ensures r.PutItinerary? ==> r.id == ui.selected.value.itineraryId
    ensures r.PutItinerary? ==> r.input == ItineraryInput(Absent, Absent, Absent, Absent)
    ensures r.PostItinerary? ==>
      r.input == ItineraryInput(Given(ui.form.title), Given(ui.form.description), Given(ui.form.start), Given(ui.form.end))
    ensures !r.DeleteItinerary? && r.activities == Given([ActivityData(ui.form)])
  {
    var act := ActivityData(ui.form);
    if ui.selected.Some? then
      PutItinerary(ui.selected.value.itineraryId, ItineraryInput(Absent, Absent, Absent, Absent), Given([act]))
    else
      PostItinerary(ItineraryInput(Given(ui.form.title), Given(ui.form.description), Given(ui.form.start), Given(ui.form.end)),
                    Given([act]))
  }

  /** `handleDelete`: nothing without a selection, else a `DELETE` of the whole parent
      itinerary. */
  function DeleteRequest(ui: Ui): (r: Option<Request>)
    ensures r.None? <==> ui.selected.None?
    ensures r.Some? ==> r.value == DeleteItinerary(ui.selected.value.itineraryId)
  {
    if ui.selected.None? then None else Some(DeleteItinerary(ui.selected.value.itineraryId))
  }

  /** After a request that succeeded: the modal closes, the selection is cleared and the
      events are fetched again from the server's new store. */
  function AfterSuccess(ui: Ui, s: Store): (r: Ui)
    ensures !r.modalOpen && r.selected.None? && r.events == EventsFor(s)
  {
    ui.(modalOpen := false, selected := None, events := EventsFor(s))
  }

  /** The server's handling of a request at time `now`. */
  function Serve(s: Store, req: Request, now: int): (Store, Reply) {
    match req
    case PutItinerary(id, input, acts) => Update(s, id, input, acts)
    case PostItinerary(input, acts) => Create(s, input, acts, now)
    case DeleteItinerary(id) => Delete(s, id)
  }

  // ---------------------------------------------------------------------------------
  // What the buttons do to the store

  /** Submitting an edit makes the clicked event's itinerary hold exactly one activity,
      built from the form: its other activities are gone, and its own fields are kept. */
  lemma EditLeavesOneActivity(s: Store, ui: Ui, now: int)
    requires Valid(s) && ui.selected.Some? && HasItinerary(s, ui.selected.value.itineraryId)
    ensures var id := ui.selected.value.itineraryId;
      var (s', reply) := Serve(s, SubmitRequest(ui), now);
      && Valid(s') && reply.Updated?
      && ActivitiesOf(s', id) ==
           [Activity(s.nextActivityId, ui.form.title, ui.form.start, Some(ui.form.location), Some(ui.form.notes), id)]
      && reply.view.itinerary == Lookup(s, id).value
      && forall other :: other != id ==> ActivitiesOf(s', other) == ActivitiesOf(s, other)
  {
    var id := ui.selected.value.itineraryId;
    var act := ActivityData(ui.form);
    var input := ItineraryInput(Absent, Absent, Absent, Absent);
    assert SubmitRequest(ui) == PutItinerary(id, input, Given([act]));
    assert UpdateFields(Lookup(s, id).value, input) == Some(Lookup(s, id).value);
    CreatedSingle(act, s.nextActivityId, id);
    UpdateEffect(s, id, input, Given([act]));
    UpdateReply(s, id, input, Given([act]));
  }

  /** Clicking an activity's event and submitting the form unchanged stores the activity
      again under a fresh key with its name, date, location and notes; a NULL location or
      note comes back as the empty text. */
  lemma UnchangedEditRoundTrip(s: Store, ui: Ui, it: Itinerary, a: Activity, now: int)
    requires Valid(s) && it in s.itineraries && a in s.activities && a.itineraryId == it.id
    ensures var (s', _) := Serve(s, SubmitRequest(HandleEventClick(ui, EventOf(it, a))), now);
      ActivitiesOf(s', it.id) ==
        [a.(id := s.nextActivityId, location := Some(OrEmpty(a.location)), notes := Some(OrEmpty(a.notes)))]
  {
    var clicked := HandleEventClick(ui, EventOf(it, a));
    assert clicked.selected.value.itineraryId == it.id;
    assert HasItinerary(s, it.id);
    EditLeavesOneActivity(s, clicked, now);
  }

  /** Submitting without a selection creates a new itinerary holding exactly the form's
      activity; the existing itineraries' activities are untouched. */
  lemma AddCreatesItinerary(s: Store, ui: Ui, now: int)
    requires Valid(s) && ui.selected.None?
    ensures var (s', reply) := Serve(s, SubmitRequest(ui), now);
      && Valid(s') && reply.Created?
      && reply.view.itinerary ==
           Itinerary(s.nextItineraryId, ui.form.title, ui.form.description, ui.form.start, ui.form.end, now)
      && ActivitiesOf(s', s.nextItineraryId) ==
           [Activity(s.nextActivityId, ui.form.title, ui.form.start, Some(ui.form.location), Some(ui.form.notes), s.nextItineraryId)]
      && forall other :: other != s.nextItineraryId ==> ActivitiesOf(s', other) == ActivitiesOf(s, other)
  {
    var act := ActivityData(ui.form);
    var input := ItineraryInput(Given(ui.form.title), Given(ui.form.description), Given(ui.form.start), Given(ui.form.end));
    assert SubmitRequest(ui) == PostItinerary(input, Given([act]));
    CreatedSingle(act, s.nextActivityId, s.nextItineraryId);
    CreateEffect(s, input, Given([act]), now);
  }

  /** Deleting a clicked event removes its whole itinerary with all of its activities,
      and nothing else. */
  lemma DeleteRemovesItinerary(s: Store, ui: Ui, now: int)
    requires ui.selected.Some? && HasItinerary(s, ui.selected.value.itineraryId)
    ensures var id := ui.selected.value.itineraryId;
      var (s', reply) := Serve(s, DeleteRequest(ui).value, now);
      && reply == Deleted(DeletedMessage)
      && !HasItinerary(s', id) && ActivitiesOf(s', id) == []
      && (forall a :: a in s'.activities <==> a in s.activities && a.itineraryId != id)
      && (forall it :: it in s'.itineraries <==> it in s.itineraries && it.id != id)
  {
    DeleteEffect(s, ui.selected.value.itineraryId);
  }

  /** An edit whose itinerary has meanwhile been deleted gets the 404 and changes nothing. */
  lemma EditOfDeletedItinerary(s: Store, ui: Ui, now: int)
    requires ui.selected.Some? && !HasItinerary(s, ui.selected.value.itineraryId)
    ensures Serve(s, SubmitRequest(ui), now) == (s, NotFound(NotFoundMessage))
  {
  }

  /** The modal is closed only with no selection: every handler keeps this, so a slot
      selected on the calendar always leads to a `POST`. */
  ghost predicate ClosedUnselected(ui: Ui) {
    !ui.modalOpen ==> ui.selected.None?
  }

  lemma HandlersKeepClosedUnselected(ui: Ui, e: Event, start: int, end: int, s: Store)
    requires ClosedUnselected(ui)
    ensures ClosedUnselected(HandleEventClick(ui, e)) && ClosedUnselected(HandleSelectSlot(ui, start, end))
    ensures ClosedUnselected(CloseModal(ui)) && ClosedUnselected(AfterSuccess(ui, s))
    ensures !ui.modalOpen ==> SubmitRequest(HandleSelectSlot(ui, start, end)).PostItinerary?
  {
  }
}

=== FILE: itinerary_model.dfy ===
/** The Sequelize models `Itinerary` and `Activity`: the record shapes, the columns that
    may not be NULL, and the store of both tables with its integrity invariant. */
module ItineraryModel {
  import opened Basics
  import Seqs

  /** An itinerary row. `title`, `description`, `startDate` and `endDate` are NOT NULL;
      `createdAt` is the timestamp the model adds. Dates are milliseconds since the epoch. */
  datatype Itinerary = Itinerary(
    id: int, title: string, description: string, startDate: int, endDate: int, createdAt: int)

  /** An activity row: `name` and `date` are NOT NULL, `location` and `notes` may be
      NULL, and `itineraryId` is the itinerary it belongs to. */
  datatype Activity = Activity(
    id: int, name: string, date: int, location: Option<string>, notes: Option<string>, itineraryId: int)

  /** Both tables, in insertion order, with the next value of each auto-increment key. */
  datatype Store = Store(
    itineraries: seq<Itinerary>, activities: seq<Activity>, nextItineraryId: int, nextActivityId: int)

  /** A field of a JSON request body: missing, an explicit `null`, or a value. */
  datatype Field<+T> = Absent | Null | Given(value: T)

  /** The column value a field sets: missing and `null` both leave the column NULL. */
  function Column<T>(f: Field<T>): (r: Option<T>)
    ensures r.Some? <==> f.Given?
  {
    if f.Given? then Some(f.value) else None
  }

  datatype ActivityInput = ActivityInput(
    name: Field<string>, date: Field<int>, location: Field<string>, notes: Field<string>)

  datatype ItineraryInput = ItineraryInput(
    title: Field<string>, description: Field<string>, startDate: Field<int>, endDate: Field<int>)

  /** `Activity.create`: the row with the given key and itinerary, or `None` when the
      NOT NULL validation of `name` or `date` fails. */
  function BuildActivity(input: ActivityInput, id: int, itineraryId: int): (r: Option<Activity>)
    ensures r.Some? <==> input.name.Given? && input.date.Given?
    ensures r.Some? ==>
      && r.value.id == id && r.value.itineraryId == itineraryId
      && r.value.name == input.name.value && r.value.date == input.date.value
      && r.value.location == Column(input.location) && r.value.notes == Column(input.notes)
  {
    if input.name.Given? && input.date.Given? then
      Some(Activity(id, input.name.value, input.date.value, Column(input.location), Column(input.notes), itineraryId))
    else None
  }

  /** `Itinerary.create` at time `now`: the row, or `None` when a NOT NULL validation fails. */
  function BuildItinerary(input: ItineraryInput, id: int, now: int): (r: Option<Itinerary>)
    ensures r.Some? <==>
      input.title.Given? && input.description.Given? && input.startDate.Given? && input.endDate.Given?
    ensures r.Some? ==>
      && r.value.id == id && r.value.createdAt == now
      && r.value.title == input.title.value && r.value.description == input.description.value
      && r.value.startDate == input.startDate.value && r.value.endDate == input.endDate.value
  {
    if input.title.Given? && input.description.Given? && input.startDate.Given? && input.endDate.Given? then
      Some(Itinerary(id, input.title.value, input.description.value, input.startDate.value, input.endDate.value, now))
    else None
  }

  /** `itinerary.update(values)`: fields that are missing keep their value, a `null` fails
      the NOT NULL validation (`None`), and given fields are set. */
  function UpdateFields(it: Itinerary, input: ItineraryInput): (r: Option<Itinerary>)
    ensures r.Some? <==>
      !input.title.Null? && !input.description.Null? && !input.startDate.Null? && !input.endDate.Null?
    ensures r.Some? ==> r.value.id == it.id && r.value.createdAt == it.createdAt
    ensures r.Some? ==> r.value.title == (if input.title.Given? then input.title.value else it.title)
    ensures r.Some? ==> r.value.description == (if input.description.Given? then input.description.value else it.description)
    ensures r.Some? ==> r.value.startDate == (if input.startDate.Given? then input.startDate.value else it.startDate)
    ensures r.Some? ==> r.value.endDate == (if input.endDate.Given? then input.endDate.value else it.endDate)
  {
    if input.title.Null? || input.description.Null? || input.startDate.Null? || input.endDate.Null? then None
    else
      Some(it.(title := if input.title.Given? then input.title.value else it.title,
               description := if input.description.Given? then input.description.value else it.description,
               startDate := if input.startDate.Given? then input.startDate.value else it.startDate,
               endDate := if input.endDate.Given? then input.endDate.value else it.endDate))
  }

  predicate HasItinerary(s: Store, id: int) {
    exists it :: it in s.itineraries && it.id == id
  }

  /** `Itinerary.hasMany(Activity)`: the activities whose `itineraryId` is `id`. */
  function ActivitiesOf(s: Store, id: int): (r: seq<Activity>)
    ensures forall a :: a in r <==> a in s.activities && a.itineraryId == id
  {
    Seqs.Filter((a: Activity) => a.itineraryId == id, s.activities)
  }

  ghost predicate DistinctItineraryIds(its: seq<Itinerary>) {
    Seqs.KeysDistinct((it: Itinerary) => it.id, its)
  }

  ghost predicate DistinctActivityIds(acts: seq<Activity>) {
    Seqs.KeysDistinct((a: Activity) => a.id, acts)
  }

  /** The integrity of the two tables: primary keys are distinct and below the next
      auto-increment value, and every activity belongs to an existing itinerary. */
  ghost predicate Valid(s: Store) {
    && DistinctItineraryIds(s.itineraries)
    && (forall it :: it in s.itineraries ==> it.id < s.nextItineraryId)
    && DistinctActivityIds(s.activities)
    && (forall a :: a in s.activities ==> a.id < s.nextActivityId)
    && (forall a :: a in s.activities ==> HasItinerary(s, a.itineraryId))
  }

  /** The store before any row is inserted. */
  function EmptyStore(): (s: Store)
    ensures Valid(s) && s.itineraries == [] && s.activities == []
  {
    Store([], [], 1, 1)
  }
}

=== FILE: itinerary_routes.dfy ===
/** The `/api/itineraries` routes: listing, reading, creating, updating and deleting an
    itinerary with its activities, each a transition of the store with a reply. */
module ItineraryRoutes {
  import opened Basics
  import Seqs
  import opened ItineraryModel

  const NotFoundMessage := "Itinerary not found"
  const DeletedMessage := "Itinerary deleted successfully"

  /** An itinerary with its activities (`include: [Activity]`). */
  datatype ItineraryView = ItineraryView(itinerary: Itinerary, activities: seq<Activity>)

  /** The replies of the five handlers. `BadRequest` is the 400 whose message is the
      validation error's text. */
  datatype Reply =
    | Listed(views: seq<ItineraryView>)
    | Found(view: ItineraryView)
    | Created(view: ItineraryView)
    | Updated(view: ItineraryView)
    | Deleted(message: string)
    | NotFound(message: string)
    | BadRequest

  function Status(r: Reply): int {
    match r
    case Created(_) => 201
    case NotFound(_) => 404
    case BadRequest => 400
    case _ => 200
  }

  function ViewOf(s: Store, it: Itinerary): ItineraryView {
    ItineraryView(it, ActivitiesOf(s, it.id))
  }

  /** `Itinerary.findByPk(id)`. */
  function Lookup(s: Store, id: int): (r: Option<Itinerary>)
    ensures r.None? <==> !HasItinerary(s, id)
    ensures r.Some? ==> r.value in s.itineraries && r.value.id == id
  {
    Seqs.Find((it: Itinerary) => it.id == id, s.itineraries)
  }

  ghost predicate NewestFirst(its: seq<Itinerary>) {
    forall i, j :: 0 <= i < j < |its| ==> its[i].createdAt >= its[j].createdAt
  }

  lemma NewestFirstTail(its: seq<Itinerary>)
    requires |its| > 0 && NewestFirst(its)
    ensures NewestFirst(its[1..])
  {
    forall i, j | 0 <= i < j < |its[1..]|
      ensures its[1..][i].createdAt >= its[1..][j].createdAt
    {
      assert its[1..][i] == its[i + 1] && its[1..][j] == its[j + 1];
    }
  }

  /** An itinerary no older than the head of an ordered list can go in front of it. */
  lemma NewestFirstCons(y: Itinerary, rest: seq<Itinerary>)
    requires NewestFirst(rest) && (|rest| > 0 ==> y.createdAt >= rest[0].createdAt)
    ensures NewestFirst([y] + rest)
  {
    var r := [y] + rest;
    forall i, j | 0 <= i < j < |r|
      ensures r[i].createdAt >= r[j].createdAt
    {
      assert r[j] == rest[j - 1];
      if i > 0 {
        assert r[i] == rest[i - 1];
      } else if j > 1 {
        assert rest[0].createdAt >= rest[j - 1].createdAt;
      }
    }
  }

  /** Insertion of one itinerary into a list ordered newest first. */
  function InsertByCreated(x: Itinerary, its: seq<Itinerary>): (r: seq<Itinerary>)
    requires NewestFirst(its)
    ensures NewestFirst(r)
    ensures multiset(r) == multiset(its) + multiset{x}
    ensures r[0] == x || (|its| > 0 && r[0] == its[0])
  {
    if |its| == 0 then [x]
    else if x.createdAt >= its[0].createdAt then
      NewestFirstCons(x, its);
      [x] + its
    else
      NewestFirstTail(its);
      var rest := InsertByCreated(x, its[1..]);
      NewestFirstCons(its[0], rest);
      assert its == [its[0]] + its[1..];
      [its[0]] + rest
  }

  /** `order: [['createdAt', 'DESC']]`. Rows with equal timestamps may come in any order;
      this picks one. */
  function SortByCreated(its: seq<Itinerary>): (r: seq<Itinerary>)
    ensures NewestFirst(r)
    ensures multiset(r) == multiset(its)
  {
    if |its| == 0 then []
    else
      assert its == [its[0]] + its[1..];
      InsertByCreated(its[0], SortByCreated(its[1..]))
  }

  /** The itineraries the views show, in order. */
  function ItinerariesOf(views: seq<ItineraryView>): seq<Itinerary> {
    Seqs.Map((v: ItineraryView) => v.itinerary, views)
  }

  /** Each itinerary with its activities, in order. */
  function ViewsFor(s: Store, its: seq<Itinerary>): seq<ItineraryView> {
    Seqs.Map((it: Itinerary) => ViewOf(s, it), its)
  }

  /** Views of a newest-first permutation of the store's itineraries are newest first,
      carry all activities, and show each itinerary once. */
  lemma ViewsForSorted(s: Store, sorted: seq<Itinerary>)
    requires NewestFirst(sorted) && multiset(sorted) == multiset(s.itineraries)
    ensures var views := ViewsFor(s, sorted);
      && |views| == |s.itineraries|
      && (forall i, j :: 0 <= i < j < |views| ==> views[i].itinerary.createdAt >= views[j].itinerary.createdAt)
      && (forall i :: 0 <= i < |views| ==> views[i].activities == ActivitiesOf(s, views[i].itinerary.id))
      && multiset(ItinerariesOf(views)) == multiset(s.itineraries)
  {
    var views := ViewsFor(s, sorted);
    assert ItinerariesOf(views) == sorted;
    assert |sorted| == |multiset(sorted)| == |s.itineraries|;
  }

  /** `GET /`: every itinerary once, newest first, each with all of its activities. */
  function ListAll(s: Store): (r: Reply)
    ensures r.Listed?
    ensures |r.views| == |s.itineraries|
    ensures forall i, j :: 0 <= i < j < |r.views| ==> r.views[i].itinerary.createdAt >= r.views[j].itinerary.createdAt
    ensures forall i :: 0 <= i < |r.views| ==> r.views[i].activities == ActivitiesOf(s, r.views[i].itinerary.id)
    ensures multiset(ItinerariesOf(r.views)) == multiset(s.itineraries)
  {
    var sorted := SortByCreated(s.itineraries);
    ViewsForSorted(s, sorted);
    Listed(ViewsFor(s, sorted))
  }

  /** `GET /:id`. */
  function GetOne(s: Store, id: int): (r: Reply)
    ensures r == NotFound(NotFoundMessage) <==> !HasItinerary(s, id)
    ensures r.Found? ==> r.view.itinerary.id == id && r.view.activities == ActivitiesOf(s, id)
    ensures r.NotFound? || r.Found?
  {
    match Lookup(s, id)
    case None => NotFound(NotFoundMessage)
    case Some(it) => Found(ViewOf(s, it))
  }

  /** The element passes the NOT NULL validation of activities. */
  predicate IsValid(input: ActivityInput) {
    input.name.Given? && input.date.Given?
  }

  /** Every element passes the NOT NULL validation of activities. */
  predicate AllValid(inputs: seq<ActivityInput>) {
    forall k :: 0 <= k < |inputs| ==> inputs[k].name.Given? && inputs[k].date.Given?
  }

  /** The activities `Promise.all(activities.map(Activity.create))` inserts, taken in list
      order: an element failing validation inserts nothing and takes no key. */
  function CreatedActivities(inputs: seq<ActivityInput>, firstId: int, itineraryId: int): (r: seq<Activity>)
    ensures |r| <= |inputs|
    ensures forall k :: 0 <= k < |r| ==> r[k].id == firstId + k && r[k].itineraryId == itineraryId
    ensures AllValid(inputs) ==>
      |r| == |inputs| && forall k :: 0 <= k < |r| ==> Some(r[k]) == BuildActivity(inputs[k], firstId + k, itineraryId)
  {
    if |inputs| == 0 then []
    else
      assert AllValid(inputs) ==> AllValid(inputs[1..]) by {
        if AllValid(inputs) {
          forall k | 0 <= k < |inputs[1..]|
            ensures inputs[1..][k].name.Given? && inputs[1..][k].date.Given?
          {
            assert inputs[1..][k] == inputs[k + 1];
          }
        }
      }
      match BuildActivity(inputs[0], firstId, itineraryId)
      case Some(a) => [a] + CreatedActivities(inputs[1..], firstId + 1, itineraryId)
      case None => CreatedActivities(inputs[1..], firstId, itineraryId)
  }

  /** `made` is `valid`, element by element, built with consecutive keys from `firstId`. */
  predicate BuiltFrom(made: seq<Activity>, valid: seq<ActivityInput>, firstId: int, itineraryId: int) {
    && |made| == |valid|
    && forall k :: 0 <= k < |made| ==> Some(made[k]) == BuildActivity(valid[k], firstId + k, itineraryId)
  }

  /** For any list, valid or not, the inserted activities are exactly the valid elements,
      in list order, each built with the next fresh key. */
  lemma {:induction false} CreatedAreValidOnes(inputs: seq<ActivityInput>, firstId: int, itineraryId: int)
    ensures BuiltFrom(CreatedActivities(inputs, firstId, itineraryId), Seqs.Filter(IsValid, inputs), firstId, itineraryId)
    decreases |inputs|
  {
    if |inputs| > 0 {
      var valid := Seqs.Filter(IsValid, inputs[1..]);
      if IsValid(inputs[0]) {
        CreatedAreValidOnes(inputs[1..], firstId + 1, itineraryId);
        var a := BuildActivity(inputs[0], firstId, itineraryId).value;
        var rest := CreatedActivities(inputs[1..], firstId + 1, itineraryId);
        assert Seqs.Filter(IsValid, inputs) == [inputs[0]] + valid;
        assert CreatedActivities(inputs, firstId, itineraryId) == [a] + rest;
        BuiltCons(a, rest, inputs[0], valid, firstId, itineraryId);
      } else {
        CreatedAreValidOnes(inputs[1..], firstId, itineraryId);
        assert Seqs.Filter(IsValid, inputs) == valid;
        assert CreatedActivities(inputs, firstId, itineraryId) == CreatedActivities(inputs[1..], firstId, itineraryId);
      }
    }
  }

  /** One built activity in front of activities built from the following keys. */
  lemma BuiltCons(a: Activity, rest: seq<Activity>, v: ActivityInput, valid: seq<ActivityInput>,
                  firstId: int, itineraryId: int)
    requires BuildActivity(v, firstId, itineraryId) == Some(a)
    requires BuiltFrom(rest, valid, firstId + 1, itineraryId)
    ensures BuiltFrom([a] + rest, [v] + valid, firstId, itineraryId)
  {
    forall k | 0 <= k < |rest| + 1
      ensures Some(([a] + rest)[k]) == BuildActivity(([v] + valid)[k], firstId + k, itineraryId)
    {
      if k > 0 {
        assert ([a] + rest)[k] == rest[k - 1] && ([v] + valid)[k] == valid[k - 1];
        assert Some(rest[k - 1]) == BuildActivity(valid[k - 1], firstId + 1 + (k - 1), itineraryId);
      }
    }
  }

  /** A single valid activity is inserted with the first fresh key. */
  lemma CreatedSingle(input: ActivityInput, firstId: int, itineraryId: int)
    requires input.name.Given? && input.date.Given?
    ensures AllValid([input])
    ensures CreatedActivities([input], firstId, itineraryId) == [BuildActivity(input, firstId, itineraryId).value]
  {
    assert [input][1..] == [];
  }

  /** Inserts the activities of a request for one itinerary; the flag says whether every
      element passed validation (otherwise the reply is the 400, the valid ones being
      inserted all the same). */
  function AddActivities(s: Store, inputs: seq<ActivityInput>, itineraryId: int): (r: (Store, bool))
    ensures r.1 <==> AllValid(inputs)
    ensures r.0.itineraries == s.itineraries && r.0.nextItineraryId == s.nextItineraryId
  {
    var made := CreatedActivities(inputs, s.nextActivityId, itineraryId);
    (s.(activities := s.activities + made, nextActivityId := s.nextActivityId + |made|), AllValid(inputs))
  }

  /** `POST /`: the itinerary, then its activities when a non-empty list is given. */
  function Create(s: Store, input: ItineraryInput, activities: Field<seq<ActivityInput>>, now: int): (r: (Store, Reply))
    ensures BuildItinerary(input, s.nextItineraryId, now).None? ==> r == (s, BadRequest)
    ensures r.1.Created? ==> r.1.view.itinerary.id == s.nextItineraryId && r.1.view == ViewOf(r.0, r.1.view.itinerary)
    ensures r.1.Created? || r.1 == BadRequest
    ensures BuildItinerary(input, s.nextItineraryId, now).Some? ==>
      (r.1.Created? <==> !activities.Given? || AllValid(activities.value))
  {
    match BuildItinerary(input, s.nextItineraryId, now)
    case None => (s, BadRequest)
    case Some(it) =>
      var s1 := s.(itineraries := s.itineraries + [it], nextItineraryId := s.nextItineraryId + 1);
      var added := if activities.Given? && |activities.value| > 0 then AddActivities(s1, activities.value, it.id) else (s1, true);
      if added.1 then (added.0, Created(ViewOf(added.0, it))) else (added.0, BadRequest)
  }

  /** The itinerary list with the row of `it.id` replaced by `it`. */
  function ReplaceItinerary(its: seq<Itinerary>, it: Itinerary): (r: seq<Itinerary>)
    ensures |r| == |its|
    ensures forall i :: 0 <= i < |r| ==> r[i].id == its[i].id
    ensures forall i :: 0 <= i < |r| ==> r[i] == if its[i].id == it.id then it else its[i]
  {
    Seqs.Map((x: Itinerary) => if x.id == it.id then it else x, its)
  }

  /** `PUT /:id`: the fields are updated; when `activities` is present (even empty) the
      itinerary's activities are destroyed and the given ones inserted. */
  function Update(s: Store, id: int, input: ItineraryInput, activities: Field<seq<ActivityInput>>): (r: (Store, Reply))
    ensures Lookup(s, id).None? ==> r == (s, NotFound(NotFoundMessage))
    ensures Lookup(s, id).Some? && UpdateFields(Lookup(s, id).value, input).None? ==> r == (s, BadRequest)
    ensures r.1.Updated? ==> r.1.view.itinerary.id == id && r.1.view.activities == ActivitiesOf(r.0, id)
    ensures r.0.nextItineraryId == s.nextItineraryId
    ensures r.1.Updated? || r.1 == BadRequest || r.1 == NotFound(NotFoundMessage)
    ensures Lookup(s, id).Some? && UpdateFields(Lookup(s, id).value, input).Some? ==>
      (r.1.Updated? <==> !activities.Given? || AllValid(activities.value))
  {
    match Lookup(s, id)
    case None => (s, NotFound(NotFoundMessage))
    case Some(it) =>
      match UpdateFields(it, input)
      case None => (s, BadRequest)
      case Some(it') =>
        var s1 := s.(itineraries := ReplaceItinerary(s.itineraries, it'));
        if activities.Given? then
          var s2 := ClearActivities(s1, id);
          var added := if |activities.value| > 0 then AddActivities(s2, activities.value, id) else (s2, true);
          if added.1 then (added.0, Updated(ViewOf(added.0, it'))) else (added.0, BadRequest)
        else (s1, Updated(ViewOf(s1, it')))
  }

  /** `Activity.destroy({ where: { itineraryId: id } })`. */
  function ClearActivities(s: Store, id: int): Store {
    s.(activities := Seqs.Filter((a: Activity) => a.itineraryId != id, s.activities))
  }

  /** `DELETE /:id`: the itinerary's activities, then the itinerary. */
  function Delete(s: Store, id: int): (r: (Store, Reply))
    ensures Lookup(s, id).None? ==> r == (s, NotFound(NotFoundMessage))
    ensures Lookup(s, id).Some? ==> r.1 == Deleted(DeletedMessage)
    ensures r.0.nextItineraryId == s.nextItineraryId && r.0.nextActivityId == s.nextActivityId
  {
    match Lookup(s, id)
    case None => (s, NotFound(NotFoundMessage))
    case Some(_) =>
      (ClearActivities(s, id).(itineraries := Seqs.Filter((it: Itinerary) => it.id != id, s.itineraries)),
       Deleted(DeletedMessage))
  }

  // ---------------------------------------------------------------------------------
  // Properties of the transitions

  /** Inserting activities for an existing itinerary keeps the store valid. */
  lemma AddActivitiesValid(s: Store, inputs: seq<ActivityInput>, itineraryId: int)
    requires Valid(s) && HasItinerary(s, itineraryId)
    ensures Valid(AddActivities(s, inputs, itineraryId).0)
  {
    var made := CreatedActivities(inputs, s.nextActivityId, itineraryId);
    var s' := AddActivities(s, inputs, itineraryId).0;
    var n := |s.activities|;
    assert s'.activities == s.activities + made;
    forall i, j | 0 <= i < j < |s'.activities|
      ensures s'.activities[i].id != s'.activities[j].id
    {
      if j >= n {
        assert s'.activities[j] == made[j - n];
        if i < n {
          assert s.activities[i] in s.activities;
        } else {
          assert s'.activities[i] == made[i - n];
        }
      }
    }
    forall a | a in s'.activities
      ensures a.id < s'.nextActivityId && HasItinerary(s', a.itineraryId)
    {
      if a !in s.activities {
        var k :| 0 <= k < |made| && made[k] == a;
      }
    }
  }

  /** The store after the itinerary row of a valid `POST` is inserted. */
  function WithItinerary(s: Store, it: Itinerary): Store {
    s.(itineraries := s.itineraries + [it], nextItineraryId := s.nextItineraryId + 1)
  }

  /** Inserting an itinerary with the fresh key keeps the store valid; it has no
      activities yet. */
  lemma WithItineraryValid(s: Store, it: Itinerary)
    requires Valid(s) && it.id == s.nextItineraryId
    ensures Valid(WithItinerary(s, it)) && HasItinerary(WithItinerary(s, it), it.id)
    ensures !HasItinerary(s, it.id) && ActivitiesOf(WithItinerary(s, it), it.id) == []
  {
    var s1 := WithItinerary(s, it);
    assert it in s1.itineraries;
    forall i, j | 0 <= i < j < |s1.itineraries|
      ensures s1.itineraries[i].id != s1.itineraries[j].id
    {
      if j == |s.itineraries| {
        assert s1.itineraries[i] in s.itineraries;
      }
    }
    forall a | a in s1.activities
      ensures HasItinerary(s1, a.itineraryId)
    {
      var x :| x in s.itineraries && x.id == a.itineraryId;
      assert x in s1.itineraries;
    }
  }

  /** A new itinerary takes the fresh key and comes with exactly the activities of the
      request, each pointing at it; without a non-empty list it has none. The store stays
      valid and no other itinerary's activities change. */
  lemma CreateEffect(s: Store, input: ItineraryInput, activities: Field<seq<ActivityInput>>, now: int)
    requires Valid(s)
    requires BuildItinerary(input, s.nextItineraryId, now).Some?
    ensures var s' := Create(s, input, activities, now).0;
      && Valid(s')
      && !HasItinerary(s, s.nextItineraryId) && HasItinerary(s', s.nextItineraryId)
      && s'.itineraries == s.itineraries + [BuildItinerary(input, s.nextItineraryId, now).value]
      && ActivitiesOf(s', s.nextItineraryId) ==
           (if activities.Given? then CreatedActivities(activities.value, s.nextActivityId, s.nextItineraryId) else [])
      && forall other :: other != s.nextItineraryId ==> ActivitiesOf(s', other) == ActivitiesOf(s, other)
  {
    var it := BuildItinerary(input, s.nextItineraryId, now).value;
    var id := it.id;
    var s1 := WithItinerary(s, it);
    WithItineraryValid(s, it);
    assert forall other :: ActivitiesOf(s1, other) == ActivitiesOf(s, other);
    if activities.Given? && |activities.value| > 0 {
      AddActivitiesValid(s1, activities.value, id);
      AddedActivitiesOf(s1, CreatedActivities(activities.value, s.nextActivityId, id), id);
    } else if activities.Given? {
      assert CreatedActivities(activities.value, s.nextActivityId, id) == [];
    }
  }

  /** Appending activities of one itinerary changes only that itinerary's activity list. */
  lemma AddedActivitiesOf(s: Store, made: seq<Activity>, id: int)
    requires forall k :: 0 <= k < |made| ==> made[k].itineraryId == id
    ensures ActivitiesOf(s.(activities := s.activities + made), id) == ActivitiesOf(s, id) + made
    ensures forall other :: other != id ==>
      ActivitiesOf(s.(activities := s.activities + made), other) == ActivitiesOf(s, other)
  {
    Seqs.FilterAppend((a: Activity) => a.itineraryId == id, s.activities, made);
    Seqs.FilterKeepsAll((a: Activity) => a.itineraryId == id, made);
    forall other | other != id
      ensures ActivitiesOf(s.(activities := s.activities + made), other) == ActivitiesOf(s, other)
    {
      Seqs.FilterAppend((a: Activity) => a.itineraryId == other, s.activities, made);
      Seqs.FilterDropsAll((a: Activity) => a.itineraryId == other, made);
    }
  }

  /** Replacing the fields of an existing itinerary keeps its key, so the store stays
      valid and the same itineraries exist. */
  lemma ReplaceValid(s: Store, it: Itinerary)
    requires Valid(s) && HasItinerary(s, it.id) && it.id < s.nextItineraryId
    ensures Valid(s.(itineraries := ReplaceItinerary(s.itineraries, it)))
    ensures forall x :: HasItinerary(s.(itineraries := ReplaceItinerary(s.itineraries, it)), x) <==> HasItinerary(s, x)
  {
    var s1 := s.(itineraries := ReplaceItinerary(s.itineraries, it));
    Seqs.SameKeysDistinct((x: Itinerary) => x.id, s.itineraries, s1.itineraries);
    forall x
      ensures HasItinerary(s1, x) <==> HasItinerary(s, x)
    {
      if HasItinerary(s, x) {
        var y :| y in s.itineraries && y.id == x;
        var k :| 0 <= k < |s.itineraries| && s.itineraries[k] == y;
        assert s1.itineraries[k] in s1.itineraries;
      }
      if HasItinerary(s1, x) {
        var y :| y in s1.itineraries && y.id == x;
        var k :| 0 <= k < |s1.itineraries| && s1.itineraries[k] == y;
        assert s.itineraries[k] in s.itineraries;
      }
    }
    forall y | y in s1.itineraries
      ensures y.id < s1.nextItineraryId
    {
      var k :| 0 <= k < |s1.itineraries| && s1.itineraries[k] == y;
      assert s.itineraries[k] in s.itineraries;
    }
  }

  /** Destroying the activities of `id` keeps the store valid, empties that itinerary's
      list and leaves every other list alone. */
  lemma ClearValid(s: Store, id: int)
    requires Valid(s)
    ensures Valid(ClearActivities(s, id))
    ensures ActivitiesOf(ClearActivities(s, id), id) == []
    ensures forall other :: other != id ==> ActivitiesOf(ClearActivities(s, id), other) == ActivitiesOf(s, other)
  {
    Seqs.FilterKeepsKeysDistinct((a: Activity) => a.itineraryId != id, (a: Activity) => a.id, s.activities);
    forall other | other != id
      ensures ActivitiesOf(ClearActivities(s, id), other) == ActivitiesOf(s, other)
    {
      Seqs.FilterFilter((a: Activity) => a.itineraryId != id, (a: Activity) => a.itineraryId == other, s.activities);
    }
  }

  /** An update keeps the store valid; it never touches another itinerary's activities;
      without `activities` it leaves the activity table alone; with a list it makes the
      itinerary's activities exactly the (valid) elements of that list, so `[]` clears them. */
  lemma UpdateEffect(s: Store, id: int, input: ItineraryInput, activities: Field<seq<ActivityInput>>)
    requires Valid(s)
    ensures var s' := Update(s, id, input, activities).0;
      && Valid(s')
      && (forall other :: other != id ==> ActivitiesOf(s', other) == ActivitiesOf(s, other))
      && (!activities.Given? ==> s'.activities == s.activities)
      && (activities.Given? && HasItinerary(s, id) && UpdateFields(Lookup(s, id).value, input).Some? ==>
            ActivitiesOf(s', id) == CreatedActivities(activities.value, s.nextActivityId, id))
  {
    if Lookup(s, id).Some? && UpdateFields(Lookup(s, id).value, input).Some? {
      var it' := UpdateFields(Lookup(s, id).value, input).value;
      var s1 := s.(itineraries := ReplaceItinerary(s.itineraries, it'));
      ReplaceValid(s, it');
      assert forall other :: ActivitiesOf(s1, other) == ActivitiesOf(s, other);
      if activities.Given? {
        var s2 := ClearActivities(s1, id);
        ClearValid(s1, id);
        assert HasItinerary(s2, id);
        var made := CreatedActivities(activities.value, s.nextActivityId, id);
        if |activities.value| > 0 {
          AddActivitiesValid(s2, activities.value, id);
          AddedActivitiesOf(s2, made, id);
        } else {
          assert made == [];
        }
      }
    }
  }

  /** An update of an existing itinerary whose fields and activities all pass validation
      replies with the updated itinerary and its activities. */
  lemma UpdateReply(s: Store, id: int, input: ItineraryInput, activities: Field<seq<ActivityInput>>)
    requires Lookup(s, id).Some? && UpdateFields(Lookup(s, id).value, input).Some?
    requires activities.Given? ==> AllValid(activities.value)
    ensures var (s', reply) := Update(s, id, input, activities);
      reply == Updated(ViewOf(s', UpdateFields(Lookup(s, id).value, input).value))
  {
  }

  /** A deletion keeps the store valid. */
  lemma DeleteValid(s: Store, id: int)
    requires Valid(s)
    ensures Valid(Delete(s, id).0)
  {
    if HasItinerary(s, id) {
      var pi := (it: Itinerary) => it.id != id;
      var pa := (a: Activity) => a.itineraryId != id;
      var s' := Delete(s, id).0;
      Seqs.FilterKeepsKeysDistinct(pi, (it: Itinerary) => it.id, s.itineraries);
      Seqs.FilterKeepsKeysDistinct(pa, (a: Activity) => a.id, s.activities);
      forall a | a in s'.activities
        ensures HasItinerary(s', a.itineraryId)
      {
        var y :| y in s.itineraries && y.id == a.itineraryId;
        assert y in s'.itineraries;
      }
    }
  }

  /** A deletion removes the itinerary and every activity pointing at it, and nothing
      else. */
  lemma DeleteEffect(s: Store, id: int)
    requires HasItinerary(s, id)
    ensures var s' := Delete(s, id).0;
      && !HasItinerary(s', id) && ActivitiesOf(s', id) == []
      && (forall it :: it in s'.itineraries <==> it in s.itineraries && it.id != id)
      && (forall a :: a in s'.activities <==> a in s.activities && a.itineraryId != id)
      && (forall other :: other != id ==> ActivitiesOf(s', other) == ActivitiesOf(s, other))
  {
    var pa := (a: Activity) => a.itineraryId != id;
    forall other | other != id
      ensures ActivitiesOf(Delete(s, id).0, other) == ActivitiesOf(s, other)
    {
      Seqs.FilterFilter(pa, (a: Activity) => a.itineraryId == other, s.activities);
    }
  }

  /** A request whose itinerary is valid but one of whose activities is not still inserts
      the itinerary (and the valid activities) although the reply is the 400. */
  lemma CreateKeepsItineraryOnBadActivity(s: Store, input: ItineraryInput, activities: seq<ActivityInput>, now: int)
    requires BuildItinerary(input, s.nextItineraryId, now).Some?
    requires |activities| > 0 && !AllValid(activities)
    ensures Create(s, input, Given(activities), now).1 == BadRequest
    ensures HasItinerary(Create(s, input, Given(activities), now).0, s.nextItineraryId)
  {
    var s' := Create(s, input, Given(activities), now).0;
    assert s'.itineraries[|s.itineraries|] in s'.itineraries;
  }
}

=== FILE: login.dfy ===
/** The `/api/auth` routes: `POST /login` resolves an account by email, checks the
    password and signs a session token; `GET /access-cards` lists an account's cards. */
module Login {
  import opened Basics
  import opened Schema
  import Seqs
  import Numerals

  const InvalidCredentialsMessage := "Invalid credentials"
  const ServerErrorMessage := "Server error"
  const NoAccountIdMessage := "No account ID provided"

  /** The login reply: the token and the account's cards, or an error status and message. */
  datatype LoginResponse =
    | LoggedIn(token: string, accountId: int, name: string, accessCards: seq<AuthCardRow>)
    | LoginRefused(status: int, message: string)

  /** `SELECT * FROM Accounts WHERE primary_email = $1`; an absent email is bound as NULL
      and matches no row. */
  function PrimaryRows(accounts: seq<Account>, email: Option<string>): (r: seq<Account>)
    ensures forall a :: a in r <==> a in accounts && email == Some(a.primaryEmail)
  {
    Seqs.Filter((a: Account) => email == Some(a.primaryEmail), accounts)
  }

  /** `SELECT a.* FROM AccessCards ac JOIN Accounts a ON ac.account_id = a.account_id
      WHERE ac.email = $1`: for each card with the email, in card order, its account. */
  function CardEmailRows(cards: seq<AccessCard>, accounts: seq<Account>, email: Option<string>): (r: seq<Account>)
    ensures forall a :: a in r ==> a in accounts && exists c :: c in cards && email == Some(c.email) && c.accountId == a.id
  {
    if |cards| == 0 then []
    else
      var here := if email == Some(cards[0].email)
        then Seqs.Filter((a: Account) => a.id == cards[0].accountId, accounts) else [];
      var rest := CardEmailRows(cards[1..], accounts, email);
      assert forall a :: a in rest ==> exists c :: c in cards && email == Some(c.email) && c.accountId == a.id by {
        forall a | a in rest
          ensures exists c :: c in cards && email == Some(c.email) && c.accountId == a.id
        {
          var c :| c in cards[1..] && email == Some(c.email) && c.accountId == a.id;
          assert c in cards;
        }
      }
      here + rest
  }

  /** The rows the handler goes on with: the primary-email rows, and only when there are
      none, the card-email rows (if there are any). */
  function ResolveRows(t: Tables, email: Option<string>): seq<Account> {
    var primary := PrimaryRows(t.accounts, email);
    if |primary| == 0 && |CardEmailRows(t.cards, t.accounts, email)| > 0
    then CardEmailRows(t.cards, t.accounts, email) else primary
  }

  /** `account.rows[0]`, the account the login goes on with. */
  function ResolveAccount(t: Tables, email: Option<string>): (r: Option<Account>)
    ensures r.Some? ==> r.value in t.accounts
  {
    var rows := ResolveRows(t, email);
    if |rows| == 0 then None else assert rows[0] in rows; Some(rows[0])
  }

  /** `POST /login`. The password check (`bcrypt.compare`) and the token signing
      (`jwt.sign` with the 24-hour expiry) are parameters. An absent password makes the
      comparison fail with an error, which is the 500 reply. */
  function Login(email: Option<string>, password: Option<string>, db: Fetch<Tables>,
                 passwordMatches: (string, string) -> bool, sign: Payload -> string): (r: LoginResponse)
    ensures db.StoreFailure? ==> r == LoginRefused(500, ServerErrorMessage)
    ensures db.Fetched? && ResolveAccount(db.rows, email).None? ==>
      r == LoginRefused(401, InvalidCredentialsMessage)
    ensures r.LoggedIn? ==>
      && db.Fetched? && ResolveAccount(db.rows, email).Some? && password.Some?
      && var a := ResolveAccount(db.rows, email).value;
         && passwordMatches(password.value, a.passwordHash)
         && r.token == sign(Payload(a.id, a.primaryEmail))
         && r.accountId == a.id && r.name == a.name
         && r.accessCards == AuthCardRowsOf(db.rows, a.id)
    ensures r.LoginRefused? ==>
      r in {LoginRefused(401, InvalidCredentialsMessage), LoginRefused(500, ServerErrorMessage)}
    ensures db.Fetched? && ResolveAccount(db.rows, email).Some? ==>
      && (password.None? ==> r == LoginRefused(500, ServerErrorMessage))
      && (password.Some? && !passwordMatches(password.value, ResolveAccount(db.rows, email).value.passwordHash) ==>
            r == LoginRefused(401, InvalidCredentialsMessage))
      && (password.Some? && passwordMatches(password.value, ResolveAccount(db.rows, email).value.passwordHash) ==>
            r.LoggedIn?)
  {
    match db
    case StoreFailure => LoginRefused(500, ServerErrorMessage)
    case Fetched(t) =>
      match ResolveAccount(t, email)
      case None => LoginRefused(401, InvalidCredentialsMessage)
      case Some(a) =>
        match password
        case None => LoginRefused(500, ServerErrorMessage)
        case Some(p) =>
          if !passwordMatches(p, a.passwordHash) then LoginRefused(401, InvalidCredentialsMessage)
          else LoggedIn(sign(Payload(a.id, a.primaryEmail)), a.id, a.name, AuthCardRowsOf(t, a.id))
  }

  /** A primary-email match wins: the first account with that primary email is used and
      the cards table is never consulted. */
  lemma PrimaryEmailFirst(t: Tables, email: string, i: nat)
    requires i < |t.accounts| && t.accounts[i].primaryEmail == email
    requires forall j :: 0 <= j < i ==> t.accounts[j].primaryEmail != email
    ensures ResolveAccount(t, Some(email)) == Some(t.accounts[i])
    ensures forall cards :: ResolveAccount(t.(cards := cards), Some(email)) == Some(t.accounts[i])
  {
    Seqs.FirstOfFilter((a: Account) => Some(email) == Some(a.primaryEmail), t.accounts, i);
    forall cards
      ensures ResolveAccount(t.(cards := cards), Some(email)) == Some(t.accounts[i])
    {
      Seqs.FirstOfFilter((a: Account) => Some(email) == Some(a.primaryEmail), t.(cards := cards).accounts, i);
    }
  }

  /** Without a primary-email match, the account of the first card carrying the email is
      used (the first account row with that card's account id). */
  lemma CardEmailFallback(t: Tables, email: string, i: nat, k: nat)
    requires forall a :: a in t.accounts ==> a.primaryEmail != email
    requires i < |t.cards| && t.cards[i].email == email
    requires forall j :: 0 <= j < i ==> t.cards[j].email != email
    requires k < |t.accounts| && t.accounts[k].id == t.cards[i].accountId
    requires forall j :: 0 <= j < k ==> t.accounts[j].id != t.cards[i].accountId
    ensures ResolveAccount(t, Some(email)) == Some(t.accounts[k])
  {
    assert PrimaryRows(t.accounts, Some(email)) == [];
    CardEmailRowsFirst(t.cards, t.accounts, email, i, k);
  }

  lemma {:induction false} CardEmailRowsFirst(cards: seq<AccessCard>, accounts: seq<Account>, email: string, i: nat, k: nat)
    requires i < |cards| && cards[i].email == email
    requires forall j :: 0 <= j < i ==> cards[j].email != email
    requires k < |accounts| && accounts[k].id == cards[i].accountId
    requires forall j :: 0 <= j < k ==> accounts[j].id != cards[i].accountId
    ensures |CardEmailRows(cards, accounts, Some(email))| > 0
    ensures CardEmailRows(cards, accounts, Some(email))[0] == accounts[k]
    decreases i
  {
    if i == 0 {
      Seqs.FirstOfFilter((a: Account) => a.id == cards[0].accountId, accounts, k);
    } else {
      assert cards[1..][i - 1] == cards[i];
      CardEmailRowsFirst(cards[1..], accounts, email, i - 1, k);
    }
  }

  /** The fallback when every card carrying the email belongs to the same account: every
      row the join can return is an account with that id, whatever order the rows come
      in, and the login goes on with the first account row with that id. */
  lemma CardEmailSameAccount(t: Tables, email: string, id: int, k: nat)
    requires forall a :: a in t.accounts ==> a.primaryEmail != email
    requires exists c :: c in t.cards && c.email == email
    requires forall c :: c in t.cards && c.email == email ==> c.accountId == id
    requires k < |t.accounts| && t.accounts[k].id == id
    requires forall j :: 0 <= j < k ==> t.accounts[j].id != id
    ensures forall a :: a in CardEmailRows(t.cards, t.accounts, Some(email)) ==> a.id == id
    ensures ResolveAccount(t, Some(email)) == Some(t.accounts[k])
  {
    assert PrimaryRows(t.accounts, Some(email)) == [];
    SameAccountRowsFirst(t.cards, t.accounts, email, id, k);
  }

  lemma {:induction false} SameAccountRowsFirst(cards: seq<AccessCard>, accounts: seq<Account>, email: string, id: int, k: nat)
    requires exists c :: c in cards && c.email == email
    requires forall c :: c in cards && c.email == email ==> c.accountId == id
    requires k < |accounts| && accounts[k].id == id
    requires forall j :: 0 <= j < k ==> accounts[j].id != id
    ensures |CardEmailRows(cards, accounts, Some(email))| > 0
    ensures CardEmailRows(cards, accounts, Some(email))[0] == accounts[k]
    decreases |cards|
  {
    if cards[0].email == email {
      Seqs.FirstOfFilter((a: Account) => a.id == cards[0].accountId, accounts, k);
    } else {
      var c :| c in cards && c.email == email;
      assert c in cards[1..];
      SameAccountRowsFirst(cards[1..], accounts, email, id, k);
    }
  }

  /** An email that is neither a primary email nor the email of a card whose account
      exists resolves to no account, and the login is the 401. */
  lemma UnknownEmailRefused(t: Tables, email: Option<string>, password: Option<string>,
                            passwordMatches: (string, string) -> bool, sign: Payload -> string)
    requires forall a :: a in t.accounts ==> email != Some(a.primaryEmail)
    requires forall c, a :: c in t.cards && a in t.accounts && email == Some(c.email) ==> c.accountId != a.id
    ensures ResolveAccount(t, email).None?
    ensures Login(email, password, Fetched(t), passwordMatches, sign) == LoginRefused(401, InvalidCredentialsMessage)
  {
    assert PrimaryRows(t.accounts, email) == [];
  }

  /** A wrong password gets exactly the reply of an unknown email, so the two cannot be
      told apart. */
  lemma WrongPasswordLikeUnknownEmail(t: Tables, email: Option<string>, password: string,
                                      unknown: Option<string>, passwordMatches: (string, string) -> bool,
                                      sign: Payload -> string)
    requires ResolveAccount(t, email).Some?
    requires !passwordMatches(password, ResolveAccount(t, email).value.passwordHash)
    requires ResolveAccount(t, unknown).None?
    ensures Login(email, Some(password), Fetched(t), passwordMatches, sign) ==
      Login(unknown, Some(password), Fetched(t), passwordMatches, sign)
  {
  }

  /** A login through a card email signs the account's primary email into the token, not
      the email the user typed. */
  lemma CardEmailLoginSignsPrimaryEmail(t: Tables, email: string, password: string,
                                        passwordMatches: (string, string) -> bool, sign: Payload -> string)
    requires forall a :: a in t.accounts ==> a.primaryEmail != email
    requires Login(Some(email), Some(password), Fetched(t), passwordMatches, sign).LoggedIn?
    ensures exists a ::
      (&& a in t.accounts && a.primaryEmail != email
       && Login(Some(email), Some(password), Fetched(t), passwordMatches, sign).token == sign(Payload(a.id, a.primaryEmail)))
  {
    var a := ResolveAccount(t, Some(email)).value;
    assert a in t.accounts;
  }

  /** On success the reply lists exactly the resolved account's cards. */
  lemma LoginListsOwnCards(email: Option<string>, password: Option<string>, t: Tables,
                           passwordMatches: (string, string) -> bool, sign: Payload -> string, c: AccessCard)
    requires Login(email, password, Fetched(t), passwordMatches, sign).LoggedIn?
    ensures var r := Login(email, password, Fetched(t), passwordMatches, sign);
      (c in t.cards && c.accountId == r.accountId) <==>
        exists i :: 0 <= i < |r.accessCards| && r.accessCards[i].card == c
  {
    var r := Login(email, password, Fetched(t), passwordMatches, sign);
    var cards := CardsOf(t.cards, r.accountId);
    if c in t.cards && c.accountId == r.accountId {
      assert c in cards;
      var i :| 0 <= i < |cards| && cards[i] == c;
      assert r.accessCards[i] == AuthCardRow(cards[i], JoinSchool(cards[i], t.schools).schoolName);
    }
  }

  /** The reply of `GET /access-cards`. */
  datatype AccountCardsResponse = AccountCards(rows: seq<AuthCardRow>) | AccountCardsRefused(status: int, message: string)

  /** `GET /access-cards?account_id=…`: an absent or empty `account_id` is the 401; text
      the database cannot read as an `integer`, or reads as one out of its range, makes
      the query fail (500). No token is asked for. */
  function AccountCardsFor(accountId: Option<string>, db: Fetch<Tables>): (r: AccountCardsResponse)
    ensures accountId.None? || accountId == Some("") ==> r == AccountCardsRefused(401, NoAccountIdMessage)
    ensures accountId.Some? && accountId.value != "" && (db.StoreFailure? || Numerals.PgInteger(accountId.value).None?) ==>
      r == AccountCardsRefused(500, ServerErrorMessage)
    ensures accountId.Some? && accountId.value != "" && db.Fetched? && Numerals.PgInteger(accountId.value).Some? ==>
      r == AccountCards(AuthCardRowsOf(db.rows, Numerals.PgInteger(accountId.value).value))
    ensures r.AccountCards? ==>
      && accountId.Some? && db.Fetched? && Numerals.PgInteger(accountId.value).Some?
      && r.rows == AuthCardRowsOf(db.rows, Numerals.PgInteger(accountId.value).value)
  {
    match accountId
    case None => AccountCardsRefused(401, NoAccountIdMessage)
    case Some(text) =>
      if text == "" then AccountCardsRefused(401, NoAccountIdMessage)
      else
        match db
        case StoreFailure => AccountCardsRefused(500, ServerErrorMessage)
        case Fetched(t) =>
          match Numerals.PgInteger(text)
          case None => AccountCardsRefused(500, ServerErrorMessage)
          case Some(id) => AccountCards(AuthCardRowsOf(t, id))
  }

  /** The decimal text of an account id lists that account's cards; an id outside the
      `integer` range is the 500. */
  lemma AccountCardsForId(id: int, t: Tables)
    ensures AccountCardsFor(Some(Numerals.IntToString(id)), Fetched(t)) ==
      if Numerals.InPgIntRange(id) then AccountCards(AuthCardRowsOf(t, id))
      else AccountCardsRefused(500, ServerErrorMessage)
  {
    Numerals.PgIntegerOfIntToString(id);
  }
}

=== FILE: numerals.dfy ===
/** Integer text as the portal's two runtimes handle it: JavaScript's `String(n)` and
    `parseInt(s)` on the client, and PostgreSQL's reading of a text parameter compared
    with an integer column on the server. */
module Numerals {
  import opened Basics

  /** A digit of the given radix (10 or 16), in either letter case for 16. */
  predicate IsDigitIn(c: char, radix: nat) {
    || '0' <= c <= '9'
    || (radix == 16 && ('a' <= c <= 'f' || 'A' <= c <= 'F'))
  }

  function DigitValue(c: char, radix: nat): (d: nat)
    requires IsDigitIn(c, radix)
    ensures d < if radix == 16 then 16 else 10
  {
    if '0' <= c <= '9' then c as int - '0' as int
    else if 'a' <= c <= 'f' then c as int - 'a' as int + 10
    else c as int - 'A' as int + 10
  }

  predicate AllDigitsIn(s: string, radix: nat) {
    forall i :: 0 <= i < |s| ==> IsDigitIn(s[i], radix)
  }

  /** The number a digit string denotes, most significant digit first. */
  function Value(s: string, radix: nat): nat
    requires AllDigitsIn(s, radix)
  {
    if |s| == 0 then 0
    else Value(s[..|s| - 1], radix) * radix + DigitValue(s[|s| - 1], radix)
  }

  /** The length of the longest prefix of `s` made of digits of the radix. */
  function DigitRun(s: string, radix: nat): (k: nat)
    ensures k <= |s|
    ensures AllDigitsIn(s[..k], radix)
    ensures k < |s| ==> !IsDigitIn(s[k], radix)
  {
    if |s| == 0 || !IsDigitIn(s[0], radix) then 0
    else
      var k := 1 + DigitRun(s[1..], radix);
      assert forall i :: 1 <= i < k ==> s[..k][i] == s[1..][..k - 1][i - 1];
      k
  }

  /** The decimal digit of a value below ten. */
  function DigitChar(d: nat): (c: char)
    requires d < 10
    ensures IsDigitIn(c, 10) && DigitValue(c, 10) == d
  {
    ('0' as int + d) as char
  }

  /** `String(n)` for a non-negative integer: its decimal digits, no leading zero. */
  function NatToString(n: nat): (r: string)
    ensures |r| >= 1 && AllDigitsIn(r, 10)
  {
    if n < 10 then [DigitChar(n)] else NatToString(n / 10) + [DigitChar(n % 10)]
  }

  /** `String(n)` for any integer: a minus sign before the digits of a negative one. */
  function IntToString(n: int): (r: string)
    ensures |r| >= 1
  {
    if n < 0 then "-" + NatToString(-n) else NatToString(n)
  }

  /** The white space `parseInt` skips before the number (ECMAScript's WhiteSpace and
      LineTerminator characters). */
  predicate IsJsSpace(c: char) {
    || c == ' ' || c == '\t' || c == '\n' || c == '\r' || c == '\U{B}' || c == '\U{C}'
    || c == '\U{A0}' || c == '\U{1680}' || '\U{2000}' <= c <= '\U{200A}'
    || c == '\U{2028}' || c == '\U{2029}' || c == '\U{202F}' || c == '\U{205F}'
    || c == '\U{3000}' || c == '\U{FEFF}'
  }

  /** The white space PostgreSQL's integer input skips around the digits (C `isspace`). */
  predicate IsCSpace(c: char) {
    c == ' ' || c == '\t' || c == '\n' || c == '\r' || c == '\U{B}' || c == '\U{C}'
  }

  /** `s` without its leading characters satisfying `space`. */
  function TrimStart(s: string, space: char -> bool): (r: string)
    ensures |r| <= |s| && r == s[|s| - |r|..]
    ensures |r| > 0 ==> !space(r[0])
  {
    if |s| > 0 && space(s[0]) then TrimStart(s[1..], space) else s
  }

  /** An optional leading sign: whether it was a minus, and the text after it. */
  function SplitSign(t: string): (bool, string) {
    if |t| > 0 && t[0] == '-' then (true, t[1..])
    else if |t| > 0 && t[0] == '+' then (false, t[1..])
    else (false, t)
  }

  function Signed(negative: bool, v: nat): int {
    if negative then -(v as int) else v as int
  }

  /** `parseInt(s)` with no radix argument: leading white space and one sign are skipped,
      a `0x`/`0X` prefix selects hexadecimal, and the longest run of digits that follows
      is the value; the rest of the text is ignored. `None` is `NaN`, when no digit follows. */
  function ParseInt(s: string): Option<int> {
    var (negative, body) := SplitSign(TrimStart(s, IsJsSpace));
    var hex := |body| >= 2 && body[0] == '0' && (body[1] == 'x' || body[1] == 'X');
    var radix := if hex then 16 else 10;
    var digits := if hex then body[2..] else body;
    var k := DigitRun(digits, radix);
    if k == 0 then None else Some(Signed(negative, Value(digits[..k], radix)))
  }

  /** The range of PostgreSQL's `integer` (4-byte) type, the type of `SERIAL` keys. */
  const PgIntMin := -0x8000_0000
  const PgIntMax := 0x7fff_ffff

  predicate InPgIntRange(n: int) {
    PgIntMin <= n <= PgIntMax
  }

  /** PostgreSQL's reading of a text parameter as an `integer`: white space, one optional
      sign, at least one decimal digit, white space, and nothing else, denoting a value in
      the type's range. `None` is the "invalid input syntax" or the "value out of range"
      error. */
  function PgInteger(s: string): (r: Option<int>)
    ensures r.Some? ==> InPgIntRange(r.value)
  {
    var (negative, body) := SplitSign(TrimStart(s, IsCSpace));
    var k := DigitRun(body, 10);
    if k == 0 || TrimStart(body[k..], IsCSpace) != "" then None
    else
      var n := Signed(negative, Value(body[..k], 10));
      if InPgIntRange(n) then Some(n) else None
  }

  /** The digits of `String(n)` denote `n`. */
  lemma {:induction false} ValueOfNatToString(n: nat)
    ensures Value(NatToString(n), 10) == n
    decreases n
  {
    var r := NatToString(n);
    if n >= 10 {
      var a := NatToString(n / 10);
      assert r == a + [DigitChar(n % 10)];
      assert r[..|r| - 1] == a;
      ValueOfNatToString(n / 10);
    }
  }

  /** `String(n)` of a positive integer does not start with a zero. */
  lemma {:induction false} NatToStringLeadingDigit(n: nat)
    requires n > 0
    ensures NatToString(n)[0] != '0'
    decreases n
  {
    if n >= 10 {
      NatToStringLeadingDigit(n / 10);
    }
  }

  /** A string made only of digits is one whole digit run. */
  lemma {:induction false} DigitRunOfDigits(s: string, radix: nat)
    requires AllDigitsIn(s, radix)
    ensures DigitRun(s, radix) == |s|
    decreases |s|
  {
    if |s| > 0 {
      DigitRunOfDigits(s[1..], radix);
    }
  }

  /** Text that starts with a digit has no leading white space and no sign. */
  lemma DigitFirstUnsigned(r: string)
    requires |r| > 0 && IsDigitIn(r[0], 10)
    ensures SplitSign(r) == (false, r)
    ensures TrimStart(r, IsJsSpace) == r
    ensures TrimStart(r, IsCSpace) == r
  {
    assert !IsJsSpace(r[0]) && !IsCSpace(r[0]);
  }

  /** What `IntToString` writes splits back into the sign and digits it was made of. */
  lemma IntToStringParts(n: int)
    ensures TrimStart(IntToString(n), IsJsSpace) == IntToString(n)
    ensures TrimStart(IntToString(n), IsCSpace) == IntToString(n)
    ensures SplitSign(IntToString(n)) == (n < 0, NatToString(if n < 0 then -n else n))
  {
    if n < 0 {
      var r := IntToString(n);
      assert r[0] == '-';
      assert !IsJsSpace(r[0]) && !IsCSpace(r[0]);
      assert r[1..] == NatToString(-n);
    } else {
      DigitFirstUnsigned(NatToString(n));
    }
  }

  /** `parseInt(String(n))` is `n`: an id written to storage as text reads back as itself. */
  lemma ParseIntOfIntToString(n: int)
    ensures ParseInt(IntToString(n)) == Some(n)
  {
    var m: nat := if n < 0 then -n else n;
    var digits := NatToString(m);
    IntToStringParts(n);
    if m > 0 {
      NatToStringLeadingDigit(m);
    }
    assert !(|digits| >= 2 && digits[0] == '0');
    DigitRunOfDigits(digits, 10);
    assert digits[..|digits|] == digits;
    ValueOfNatToString(m);
  }

  /** PostgreSQL reads the decimal text of `n` as `n` when `n` is in the `integer` range,
      and rejects it otherwise. */
  lemma PgIntegerOfIntToString(n: int)
    ensures PgInteger(IntToString(n)) == if InPgIntRange(n) then Some(n) else None
  {
    var m: nat := if n < 0 then -n else n;
    var digits := NatToString(m);
    IntToStringParts(n);
    DigitRunOfDigits(digits, 10);
    assert digits[..|digits|] == digits;
    assert digits[|digits|..] == "";
    ValueOfNatToString(m);
  }
}

=== FILE: schema.dfy ===
/** The relational tables the portal's server reads: accounts, schools, access cards,
    enrollments and permissions, each held as the sequence of its rows in the order the
    database returns them. */
module Schema {
  import opened Basics
  import Seqs

  /** A row of `Accounts`; `id` is `account_id`. */
  datatype Account = Account(id: int, primaryEmail: string, name: string, passwordHash: string)

  /** A row of `Schools`; `id` is `school_id`. */
  datatype School = School(id: int, name: string, logoUrl: Option<string>)

  /** A row of `AccessCards`: a role held by an account, for one school or, when `global`
      is set, for all of them. `id` is `accesscard_id`. */
  datatype AccessCard = AccessCard(
    id: int, accountId: int, email: string, role: string, global: bool, schoolId: Option<int>)

  /** A row of `enrollments`; only the card it references matters here. */
  datatype Enrollment = Enrollment(accessCardId: int)

  /** One element of a permission's `rules.rules` list: a condition kind and, for the kind
      `roles`, the roles it admits. */
  datatype Rule = Rule(condition: string, roles: seq<string>)

  /** A row of `permissions`, keyed by its `type` and `resource` columns. */
  datatype Permission = Permission(kind: string, resource: string, rules: seq<Rule>)

  datatype Tables = Tables(
    accounts: seq<Account>,
    schools: seq<School>,
    cards: seq<AccessCard>,
    enrollments: seq<Enrollment>,
    permissions: seq<Permission>)

  /** The claims the server signs into a session token and reads back from it. */
  datatype Payload = Payload(id: int, email: string)

  /** An access card joined with its school (`LEFT JOIN schools`): the school columns are
      NULL when the card names no school or the school is missing. */
  datatype CardRow = CardRow(card: AccessCard, schoolName: Option<string>, logoUrl: Option<string>)

  /** `WHERE ac.account_id = $1`: the cards of one account, in table order. */
  function CardsOf(cards: seq<AccessCard>, accountId: int): (r: seq<AccessCard>)
    ensures forall c :: c in r <==> c in cards && c.accountId == accountId
  {
    Seqs.Filter((c: AccessCard) => c.accountId == accountId, cards)
  }

  /** The school columns of a card row; `school_id` is the key of `Schools`, so at most
      one school matches. */
  function JoinSchool(card: AccessCard, schools: seq<School>): (r: CardRow)
    ensures r.card == card
    ensures r.schoolName.Some? <==>
      card.schoolId.Some? && exists s :: s in schools && s.id == card.schoolId.value
    ensures r.schoolName.Some? ==>
      exists s :: s in schools && s.id == card.schoolId.value && s.name == r.schoolName.value && s.logoUrl == r.logoUrl
    ensures r.schoolName.None? ==> r.logoUrl.None?
  {
    match card.schoolId
    case None => CardRow(card, None, None)
    case Some(sid) =>
      match Seqs.Find((s: School) => s.id == sid, schools)
      case None => CardRow(card, None, None)
      case Some(s) => CardRow(card, Some(s.name), s.logoUrl)
  }

  /** The card's school columns come from the first school row with the card's school
      id; since `school_id` is the key of `Schools`, that is the only such row. */
  lemma JoinSchoolFirst(card: AccessCard, schools: seq<School>, i: nat)
    requires i < |schools| && card.schoolId == Some(schools[i].id)
    requires forall j :: 0 <= j < i ==> schools[j].id != schools[i].id
    ensures JoinSchool(card, schools) == CardRow(card, Some(schools[i].name), schools[i].logoUrl)
  {
    Seqs.FindIsFirst((s: School) => s.id == schools[i].id, schools, i);
  }

  /** The joined card rows of one account, with the school's name and logo, as the
      card-list query returns them. */
  function CardRowsOf(t: Tables, accountId: int): (r: seq<CardRow>)
    ensures |r| == |CardsOf(t.cards, accountId)|
    ensures forall i :: 0 <= i < |r| ==> r[i].card in t.cards && r[i].card.accountId == accountId
    ensures forall i :: 0 <= i < |r| ==> r[i] == JoinSchool(CardsOf(t.cards, accountId)[i], t.schools)
  {
    Seqs.Map((c: AccessCard) => JoinSchool(c, t.schools), CardsOf(t.cards, accountId))
  }

  /** A card row of the login queries (`SELECT ac.*, s.school_name`): the school's name
      is joined, its logo is not. */
  datatype AuthCardRow = AuthCardRow(card: AccessCard, schoolName: Option<string>)

  /** The card rows of one account as the login and `GET /api/auth/access-cards` queries
      return them. */
  function AuthCardRowsOf(t: Tables, accountId: int): (r: seq<AuthCardRow>)
    ensures |r| == |CardsOf(t.cards, accountId)|
    ensures forall i :: 0 <= i < |r| ==> r[i].card in t.cards && r[i].card.accountId == accountId
    ensures forall i :: 0 <= i < |r| ==>
      r[i] == AuthCardRow(CardsOf(t.cards, accountId)[i], JoinSchool(CardsOf(t.cards, accountId)[i], t.schools).schoolName)
  {
    Seqs.Map((c: AccessCard) => AuthCardRow(c, JoinSchool(c, t.schools).schoolName), CardsOf(t.cards, accountId))
  }
}

=== FILE: seqs.dfy ===
/** Sequence combinators with the meaning of JavaScript's `Array.prototype.filter`,
    `find`, `map` and `some`, and of an SQL `WHERE` over a table held as a sequence of rows. */
module Seqs {
  import opened Basics

  /** The elements of `s` that satisfy `p`, in their original order. */
  function Filter<T(!new)>(p: T -> bool, s: seq<T>): (r: seq<T>)
    ensures |r| <= |s|
    ensures forall x :: x in r <==> x in s && p(x)
    ensures (forall x :: x in s ==> !p(x)) ==> r == []
  {
    if |s| == 0 then []
    else if p(s[0]) then [s[0]] + Filter(p, s[1..]) else Filter(p, s[1..])
  }

  /** A filter keeps every occurrence of an element that passes and none of one that
      does not. */
  lemma {:induction false} FilterCount<T(!new)>(p: T -> bool, s: seq<T>)
    ensures forall x :: multiset(Filter(p, s))[x] == if p(x) then multiset(s)[x] else 0
    decreases |s|
  {
    if |s| > 0 {
      FilterCount(p, s[1..]);
      assert s == [s[0]] + s[1..];
    }
  }

  /** Filtering distributes over concatenation: the order of the kept elements is the
      order they had in the input. */
  lemma {:induction false} FilterAppend<T(!new)>(p: T -> bool, a: seq<T>, b: seq<T>)
    ensures Filter(p, a + b) == Filter(p, a) + Filter(p, b)
    decreases |a|
  {
    if |a| == 0 {
      assert a + b == b;
    } else {
      assert (a + b)[1..] == a[1..] + b;
      FilterAppend(p, a[1..], b);
    }
  }

  /** A filter every element passes returns its input unchanged. */
  lemma {:induction false} FilterKeepsAll<T(!new)>(p: T -> bool, s: seq<T>)
    requires forall i :: 0 <= i < |s| ==> p(s[i])
    ensures Filter(p, s) == s
    decreases |s|
  {
    if |s| > 0 {
      FilterKeepsAll(p, s[1..]);
    }
  }

  /** A filter no element passes returns nothing. */
  lemma {:induction false} FilterDropsAll<T(!new)>(p: T -> bool, s: seq<T>)
    requires forall i :: 0 <= i < |s| ==> !p(s[i])
    ensures Filter(p, s) == []
    decreases |s|
  {
    if |s| > 0 {
      FilterDropsAll(p, s[1..]);
    }
  }

  /** The first element a filter keeps is the first element satisfying its predicate. */
  lemma {:induction false} FirstOfFilter<T(!new)>(p: T -> bool, s: seq<T>, i: nat)
    requires i < |s| && p(s[i])
    requires forall j :: 0 <= j < i ==> !p(s[j])
    ensures |Filter(p, s)| > 0 && Filter(p, s)[0] == s[i]
    decreases i
  {
    if i > 0 {
      assert s[1..][i - 1] == s[i];
      FirstOfFilter(p, s[1..], i - 1);
    }
  }

  /** `ix` holds, in increasing order, exactly the positions of `s` whose element
      satisfies `p`. */
  ghost predicate Positions<T>(ix: seq<int>, p: T -> bool, s: seq<T>) {
    && (forall k :: 0 <= k < |ix| ==> 0 <= ix[k] < |s| && p(s[ix[k]]))
    && (forall k, l :: 0 <= k < l < |ix| ==> ix[k] < ix[l])
    && (forall i :: 0 <= i < |s| && p(s[i]) ==> i in ix)
  }

  /** `r` is the sequence of the elements of `s` at the positions `ix`. */
  ghost predicate ElementsAt<T>(ix: seq<int>, s: seq<T>, r: seq<T>) {
    |ix| == |r| && forall k :: 0 <= k < |ix| ==> 0 <= ix[k] < |s| && r[k] == s[ix[k]]
  }

  /** A filter keeps the elements at exactly the satisfying positions, in increasing
      order of position. */
  lemma {:induction false} FilterPositions<T(!new)>(p: T -> bool, s: seq<T>)
    ensures exists ix :: Positions(ix, p, s) && ElementsAt(ix, s, Filter(p, s))
    decreases |s|
  {
    if |s| == 0 {
      assert Positions([], p, s) && ElementsAt([], s, Filter(p, s));
    } else {
      FilterPositions(p, s[1..]);
      var tail :| Positions(tail, p, s[1..]) && ElementsAt(tail, s[1..], Filter(p, s[1..]));
      ConsPositions(p, s, tail, Filter(p, s[1..]));
      var ix := if p(s[0]) then [0] + Shift(tail) else Shift(tail);
      assert Filter(p, s) == if p(s[0]) then [s[0]] + Filter(p, s[1..]) else Filter(p, s[1..]);
      assert Positions(ix, p, s) && ElementsAt(ix, s, Filter(p, s));
    }
  }

  /** Every position moved one place to the right. */
  function Shift(ix: seq<int>): (r: seq<int>)
    ensures |r| == |ix| && forall k :: 0 <= k < |ix| ==> r[k] == ix[k] + 1
  {
    seq(|ix|, k requires 0 <= k < |ix| => ix[k] + 1)
  }

  /** The positions of `s` from those of its tail, with position 0 first when the head
      satisfies `p`. */
  lemma ConsPositions<T>(p: T -> bool, s: seq<T>, tail: seq<int>, r: seq<T>)
    requires |s| > 0 && Positions(tail, p, s[1..]) && ElementsAt(tail, s[1..], r)
    ensures var ix := if p(s[0]) then [0] + Shift(tail) else Shift(tail);
      Positions(ix, p, s) && ElementsAt(ix, s, if p(s[0]) then [s[0]] + r else r)
  {
    ShiftPositions(p, s, tail, r);
    if p(s[0]) {
      KeepHeadPositions(p, s, Shift(tail), r);
    } else {
      assert Positions(Shift(tail), p, s);
    }
  }

  /** Putting position 0 before the satisfying positions after it gives all of them. */
  lemma KeepHeadPositions<T>(p: T -> bool, s: seq<T>, shifted: seq<int>, r: seq<T>)
    requires |s| > 0 && p(s[0])
    requires forall k :: 0 <= k < |shifted| ==> 1 <= shifted[k] < |s| && p(s[shifted[k]])
    requires forall k, l :: 0 <= k < l < |shifted| ==> shifted[k] < shifted[l]
    requires forall i :: 1 <= i < |s| && p(s[i]) ==> i in shifted
    requires ElementsAt(shifted, s, r)
    ensures Positions([0] + shifted, p, s) && ElementsAt([0] + shifted, s, [s[0]] + r)
  {
    var ix := [0] + shifted;
    forall k | 0 <= k < |ix|
      ensures 0 <= ix[k] < |s| && p(s[ix[k]]) && ([s[0]] + r)[k] == s[ix[k]]
    {
      if k > 0 {
        assert ix[k] == shifted[k - 1] && ([s[0]] + r)[k] == r[k - 1];
      }
    }
    forall k, l | 0 <= k < l < |ix|
      ensures ix[k] < ix[l]
    {
      assert ix[l] == shifted[l - 1];
      if k > 0 {
        assert ix[k] == shifted[k - 1];
      }
    }
    forall i | 0 <= i < |s| && p(s[i])
      ensures i in ix
    {
      if i > 0 {
        var k :| 0 <= k < |shifted| && shifted[k] == i;
        assert ix[k + 1] == i;
      }
    }
  }

  /** Without its head, the shifted positions of the tail are the satisfying positions
      of `s` after the first. */
  lemma ShiftPositions<T>(p: T -> bool, s: seq<T>, tail: seq<int>, r: seq<T>)
    requires |s| > 0 && Positions(tail, p, s[1..]) && ElementsAt(tail, s[1..], r)
    ensures forall k :: 0 <= k < |Shift(tail)| ==> 1 <= Shift(tail)[k] < |s| && p(s[Shift(tail)[k]])
    ensures forall k, l :: 0 <= k < l < |Shift(tail)| ==> Shift(tail)[k] < Shift(tail)[l]
    ensures forall i :: 1 <= i < |s| && p(s[i]) ==> i in Shift(tail)
    ensures ElementsAt(Shift(tail), s, r)
  {
    var shifted := Shift(tail);
    forall k | 0 <= k < |shifted|
      ensures 1 <= shifted[k] < |s| && p(s[shifted[k]]) && r[k] == s[shifted[k]]
    {
      assert shifted[k] == tail[k] + 1;
      assert s[shifted[k]] == s[1..][tail[k]];
    }
    forall k, l | 0 <= k < l < |shifted|
      ensures shifted[k] < shifted[l]
    {
      assert tail[k] < tail[l];
    }
    ShiftCovers(p, s, tail);
  }

  /** Every satisfying position after the first is a shifted position of the tail. */
  lemma ShiftCovers<T>(p: T -> bool, s: seq<T>, tail: seq<int>)
    requires |s| > 0 && forall i :: 0 <= i < |s[1..]| && p(s[1..][i]) ==> i in tail
    ensures forall i :: 1 <= i < |s| && p(s[i]) ==> i in Shift(tail)
  {
    forall i | 1 <= i < |s| && p(s[i])
      ensures i in Shift(tail)
    {
      assert s[1..][i - 1] == s[i];
      var k :| 0 <= k < |tail| && tail[k] == i - 1;
      assert Shift(tail)[k] == i;
    }
  }

  /** The first element of `s` that satisfies `p`, as `Array.prototype.find` returns it. */
  function Find<T>(p: T -> bool, s: seq<T>): (r: Option<T>)
    ensures r.Some? ==> r.value in s && p(r.value)
    ensures r.None? <==> forall i :: 0 <= i < |s| ==> !p(s[i])
  {
    if |s| == 0 then None
    else if p(s[0]) then Some(s[0])
    else Find(p, s[1..])
  }

  /** `Find` returns the element at the first position that satisfies `p`. */
  lemma {:induction false} FindIsFirst<T>(p: T -> bool, s: seq<T>, i: nat)
    requires i < |s| && p(s[i])
    requires forall j :: 0 <= j < i ==> !p(s[j])
    ensures Find(p, s) == Some(s[i])
    decreases i
  {
    if i > 0 {
      assert !p(s[0]);
      assert s[1..][i - 1] == s[i];
      FindIsFirst(p, s[1..], i - 1);
    }
  }

  /** `f` applied to every element of `s`, in order. */
  function Map<A, B>(f: A -> B, s: seq<A>): (r: seq<B>)
    ensures |r| == |s|
    ensures forall i :: 0 <= i < |s| ==> r[i] == f(s[i])
  {
    if |s| == 0 then [] else [f(s[0])] + Map(f, s[1..])
  }

  /** Filtering twice keeps what the stronger filter keeps. */
  lemma {:induction false} FilterFilter<T(!new)>(p: T -> bool, q: T -> bool, s: seq<T>)
    requires forall x :: q(x) ==> p(x)
    ensures Filter(q, Filter(p, s)) == Filter(q, s)
    decreases |s|
  {
    if |s| > 0 {
      FilterFilter(p, q, s[1..]);
    }
  }

  /** No two elements of `s` share a key. */
  ghost predicate KeysDistinct<T>(key: T -> int, s: seq<T>) {
    forall i, j :: 0 <= i < j < |s| ==> key(s[i]) != key(s[j])
  }

  /** With distinct keys, the head's key is the key of no later element. */
  lemma HeadKeyUnique<T>(key: T -> int, s: seq<T>, x: T)
    requires |s| > 0 && KeysDistinct(key, s) && x in s[1..]
    ensures key(x) != key(s[0])
  {
    var k :| 0 <= k < |s[1..]| && s[1..][k] == x;
    assert s[k + 1] == x;
  }

  lemma TailKeysDistinct<T>(key: T -> int, s: seq<T>)
    requires |s| > 0 && KeysDistinct(key, s)
    ensures KeysDistinct(key, s[1..])
  {
    forall i, j | 0 <= i < j < |s[1..]|
      ensures key(s[1..][i]) != key(s[1..][j])
    {
      assert s[1..][i] == s[i + 1] && s[1..][j] == s[j + 1];
    }
  }

  /** Distinctness depends only on the keys, position by position. */
  lemma SameKeysDistinct<T>(key: T -> int, s: seq<T>, t: seq<T>)
    requires |s| == |t| && forall i :: 0 <= i < |s| ==> key(s[i]) == key(t[i])
    requires KeysDistinct(key, s)
    ensures KeysDistinct(key, t)
  {
    forall i, j | 0 <= i < j < |t|
      ensures key(t[i]) != key(t[j])
    {
      assert key(s[i]) != key(s[j]);
    }
  }

  /** Keys that are distinct in a sequence stay distinct in any filter of it. */
  lemma {:induction false} FilterKeepsKeysDistinct<T(!new)>(p: T -> bool, key: T -> int, s: seq<T>)
    requires KeysDistinct(key, s)
    ensures KeysDistinct(key, Filter(p, s))
    decreases |s|
  {
    if |s| > 0 {
      var rest := s[1..];
      TailKeysDistinct(key, s);
      FilterKeepsKeysDistinct(p, key, rest);
      var fr := Filter(p, rest);
      if p(s[0]) {
        var r := Filter(p, s);
        assert r == [s[0]] + fr;
        forall i, j | 0 <= i < j < |r|
          ensures key(r[i]) != key(r[j])
        {
          assert r[j] == fr[j - 1];
          if i == 0 {
            assert fr[j - 1] in rest;
            HeadKeyUnique(key, s, fr[j - 1]);
          } else {
            assert r[i] == fr[i - 1];
          }
        }
      }
    }
  }
}

=== FILE: start_view.dfy ===
/** The client's start page: it loads the caller's access cards, selects one (the one
    remembered in local storage, or the first), and shows the chosen card's details and
    the dashboard for its role. */
module StartView {
  import opened Basics
  import Seqs
  import Numerals
  import opened AccessCardsRoute

  const FetchErrorPrefix := "Failed to fetch access cards: "

  /** What the card request produced: a reply of the server, or a failure with no reply
      (network error), which carries only its message. */
  datatype CardsReply = Served(response: CardsResponse) | NoResponse(message: string)

  /** The component's state; `lastUsedCard` is the `lastUsedCard` entry of local storage. */
  datatype State = State(cards: seq<CardView>, selected: Option<CardView>, error: string, lastUsedCard: Option<string>)

  /** The state when the component mounts. */
  function Initial(stored: Option<string>): State {
    State([], None, "", stored)
  }

  /** The selection made once the cards arrive: a non-empty stored id selects the first
      card whose id `parseInt` reads from it, or nothing; only when nothing (or the empty
      text) is stored is the first card taken. */
  function InitialSelection(stored: Option<string>, cards: seq<CardView>): Option<CardView> {
    if stored.Some? && stored.value != "" then
      match Numerals.ParseInt(stored.value)
      case None => None
      case Some(n) => Seqs.Find((c: CardView) => c.id == n, cards)
    else if |cards| > 0 then Some(cards[0])
    else None
  }

  /** The message axios gives a reply with an error status. */
  function StatusMessage(status: int): string {
    "Request failed with status code " + Numerals.IntToString(status)
  }

  /** `err.response?.data?.error || err.response?.data?.message || err.message` for a
      request that failed; the server's card replies carry `error`, never `message`. */
  function ErrorText(reply: CardsReply): string {
    match reply
    case NoResponse(message) => message
    case Served(CardList(_)) => ""
    case Served(InvalidCards(error, _)) => if error != "" then error else StatusMessage(400)
    case Served(CardsError(status, error)) => if error != "" then error else StatusMessage(status)
  }

  /** `fetchAccessCards`: a 200 reply stores the cards and makes the initial selection (a
      failed selection leaves the selection as it was); any other outcome sets the error. */
  function AfterFetch(st: State, reply: CardsReply): (r: State)
    ensures r.lastUsedCard == st.lastUsedCard
  {
    match reply
    case Served(CardList(rows)) =>
      var choice := InitialSelection(st.lastUsedCard, rows);
      st.(cards := rows, selected := if choice.Some? then choice else st.selected)
    case _ => st.(error := FetchErrorPrefix + ErrorText(reply))
  }

  /** `handleCardChange`: select the card and remember its id (`setItem` stores the
      number as its decimal text). */
  function HandleCardChange(st: State, card: CardView): (r: State)
    ensures r.selected == Some(card) && r.cards == st.cards && r.error == st.error
  {
    st.(selected := Some(card), lastUsedCard := Some(Numerals.IntToString(card.id)))
  }

  datatype Dashboard = StudentDashboard | InstructorDashboard | AdminDashboard

  /** The school logo of a dashboard: its image source and alternative text. */
  datatype Logo = Logo(src: Option<string>, alt: string)

  datatype Panel = Panel(dashboard: Dashboard, logo: Option<Logo>)

  /** What the component renders. */
  datatype Screen =
    | ErrorScreen(message: string)
    | LoadingScreen
    | PortalScreen(options: seq<string>, role: string, school: Option<string>, email: string, panel: Option<Panel>)

  /** The dashboard for a role: one for each of the three known roles, none otherwise. */
  function DashboardFor(role: string): (d: Option<Dashboard>)
    ensures d.Some? <==> role in {"Student", "Instructor", "Admin"}
    ensures d == Some(StudentDashboard) <==> role == "Student"
    ensures d == Some(InstructorDashboard) <==> role == "Instructor"
    ensures d == Some(AdminDashboard) <==> role == "Admin"
  {
    if role == "Student" then Some(StudentDashboard)
    else if role == "Instructor" then Some(InstructorDashboard)
    else if role == "Admin" then Some(AdminDashboard)
    else None
  }

  /** A JavaScript value interpolated into a template literal: NULL becomes `null`. */
  function TemplateText(v: Option<string>): string {
    match v
    case None => "null"
    case Some(s) => s
  }

  /** The text of a card's entry in the selector. */
  function OptionLabel(c: CardView): string {
    c.email + " - " + c.role + " " + (if c.global then "(Global)" else "(" + TemplateText(c.schoolName) + ")")
  }

  /** The "School" line: `All Schools` for a global card, else the school name (nothing
      when it is NULL). */
  function SchoolLabel(c: CardView): (r: Option<string>)
    ensures c.global ==> r == Some("All Schools")
    ensures !c.global ==> r == c.schoolName
  {
    if c.global then Some("All Schools") else c.schoolName
  }

  /** The dashboard panel: the logo appears when the school name is present and not
      empty. */
  function PanelFor(c: CardView): (r: Option<Panel>)
    ensures r.Some? <==> DashboardFor(c.role).Some?
    ensures r.Some? ==> (r.value.logo.Some? <==> c.schoolName.Some? && c.schoolName.value != "")
  {
    match DashboardFor(c.role)
    case None => None
    case Some(d) =>
      var logo := if c.schoolName.Some? && c.schoolName.value != ""
        then Some(Logo(c.logoUrl, c.schoolName.value + " logo")) else None;
      Some(Panel(d, logo))
  }

  /** The render: an error first, then the loading text while nothing is selected, then
      the portal for the selected card. */
  function Render(st: State): (r: Screen)
    ensures st.error != "" ==> r == ErrorScreen(st.error)
    ensures st.error == "" && st.selected.None? ==> r == LoadingScreen
    ensures r.PortalScreen? ==> st.error == "" && st.selected.Some? && r.role == st.selected.value.role
    ensures r.PortalScreen? ==> |r.options| == |st.cards|
    ensures st.error == "" && st.selected.Some? ==>
      && r.PortalScreen?
      && r.role == st.selected.value.role && r.email == st.selected.value.email
      && r.school == SchoolLabel(st.selected.value) && r.panel == PanelFor(st.selected.value)
      && forall i :: 0 <= i < |st.cards| ==> r.options[i] == OptionLabel(st.cards[i])
  {
    if st.error != "" then ErrorScreen(st.error)
    else if st.selected.None? then LoadingScreen
    else
      var c := st.selected.value;
      PortalScreen(Seqs.Map(OptionLabel, st.cards), c.role, SchoolLabel(c), c.email, PanelFor(c))
  }

  /** A stored id that some card has selects the first card with that id. */
  lemma StoredIdSelects(s: string, cards: seq<CardView>, i: nat)
    requires s != "" && i < |cards| && Numerals.ParseInt(s) == Some(cards[i].id)
    requires forall j :: 0 <= j < i ==> cards[j].id != cards[i].id
    ensures InitialSelection(Some(s), cards) == Some(cards[i])
  {
    Seqs.FindIsFirst((c: CardView) => c.id == cards[i].id, cards, i);
  }

  /** A stored id no card has selects nothing, even when there are cards, and the page
      stays on the loading text. */
  lemma StoredIdWithoutCardSelectsNothing(s: string, cards: seq<CardView>)
    requires s != ""
    requires forall j :: 0 <= j < |cards| ==> Numerals.ParseInt(s) != Some(cards[j].id)
    ensures InitialSelection(Some(s), cards) == None
    ensures Render(AfterFetch(Initial(Some(s)), Served(CardList(cards)))) == LoadingScreen
  {
  }

  /** With nothing stored the first card is selected, and with no cards either the page
      shows the loading text. */
  lemma NothingStoredTakesFirst(stored: Option<string>, cards: seq<CardView>)
    requires stored == None || stored == Some("")
    ensures |cards| > 0 ==> InitialSelection(stored, cards) == Some(cards[0])
    ensures |cards| == 0 ==> Render(AfterFetch(Initial(stored), Served(CardList(cards)))) == LoadingScreen
  {
  }

  /** A first visit with cards shows the portal for the first card: its role, its school
      (`All Schools` for a global card), its email, and one selector entry per card. */
  lemma FirstVisitShowsFirstCard(stored: Option<string>, cards: seq<CardView>)
    requires stored == None || stored == Some("")
    requires |cards| > 0
    ensures var r := Render(AfterFetch(Initial(stored), Served(CardList(cards))));
      && r.PortalScreen? && r.role == cards[0].role && r.email == cards[0].email
      && r.school == (if cards[0].global then Some("All Schools") else cards[0].schoolName)
      && r.panel.Some? == (cards[0].role in {"Student", "Instructor", "Admin"})
      && |r.options| == |cards|
  {
  }

  /** Changing the card remembers it: the next visit selects the same card as long as it
      is still among the cards (card ids are primary keys, hence distinct). */
  lemma CardChangeRemembered(st: State, card: CardView, cards: seq<CardView>)
    requires card in cards
    requires forall i, j :: 0 <= i < j < |cards| ==> cards[i].id != cards[j].id
    ensures InitialSelection(HandleCardChange(st, card).lastUsedCard, cards) == Some(card)
  {
    var text := Numerals.IntToString(card.id);
    Numerals.ParseIntOfIntToString(card.id);
    var i :| 0 <= i < |cards| && cards[i] == card;
    StoredIdSelects(text, cards, i);
  }

  /** A caller with a Student card that has no enrollment sees the server's message
      instead of the portal, whatever is selected or stored. */
  lemma InvalidCardShowsError(stored: Option<string>, userId: int, t: Schema.Tables, c: Schema.AccessCard)
    requires c in t.cards && c.accountId == userId && c.role == "Student"
    requires forall k :: 0 <= k < |t.enrollments| ==> t.enrollments[k].accessCardId != c.id
    ensures Render(AfterFetch(Initial(stored), Served(ListCards(userId, Fetched(t))))) ==
      ErrorScreen(FetchErrorPrefix + InvalidCardsMessage)
  {
    OneInvalidCardRefusesAll(userId, t, c);
  }
}

=== FILE: token_auth.dfy ===
/** The `authenticateToken` middleware: the session token is read from the
    `Authorization` header and checked by the token verifier before the request goes on. */
module TokenAuth {
  import opened Basics
  import opened Schema

  const MissingTokenMessage := "Access token is required"
  const InvalidTokenMessage := "Invalid or expired token"

  /** What the middleware does with a request: attach the verified claims as `req.user`
      and call `next` once, or answer with an error status and message. */
  datatype TokenOutcome = Authenticated(user: Payload) | TokenRejected(status: int, error: string)

  /** `s.split(' ')`: the pieces of `s` between single spaces. Two adjacent spaces give an
      empty piece between them, and a string without spaces is one piece. */
  function Split(s: string): (r: seq<string>)
    ensures |r| >= 1
    ensures forall i :: 0 <= i < |r| ==> ' ' !in r[i]
  {
    if |s| == 0 then [""]
    else
      var rest := Split(s[1..]);
      if s[0] == ' ' then [""] + rest else [[s[0]] + rest[0]] + rest[1..]
  }

  /** `fields.join(' ')`, the inverse of `Split`. */
  function Join(fields: seq<string>): string
    requires |fields| >= 1
  {
    if |fields| == 1 then fields[0] else fields[0] + " " + Join(fields[1..])
  }

  /** Joining the pieces of a split gives back the original text. */
  lemma {:induction false} JoinSplit(s: string)
    ensures Join(Split(s)) == s
    decreases |s|
  {
    if |s| > 0 {
      var rest := Split(s[1..]);
      JoinSplit(s[1..]);
      if s[0] == ' ' {
        assert ([""] + rest)[1..] == rest;
      } else if |rest| > 1 {
        var f := [[s[0]] + rest[0]] + rest[1..];
        assert f[1..] == rest[1..];
        assert s == [s[0]] + s[1..];
      } else {
        assert s == [s[0]] + s[1..];
      }
    }
  }

  /** A space-free word in front of `s` glues onto the first piece of `s`. */
  lemma {:induction false} SplitAfterWord(w: string, s: string)
    requires ' ' !in w
    ensures Split(w + s) == [w + Split(s)[0]] + Split(s)[1..]
    decreases |w|
  {
    if |w| > 0 {
      assert (w + s)[1..] == w[1..] + s;
      assert (w + s)[0] == w[0] && w[0] != ' ';
      SplitAfterWord(w[1..], s);
      assert [w[0]] + (w[1..] + Split(s)[0]) == w + Split(s)[0];
    } else {
      var r := Split(s);
      assert w + s == s;
      assert w + r[0] == r[0];
      assert r == [r[0]] + r[1..];
    }
  }

  /** Splitting space-free pieces joined with single spaces gives the pieces back. */
  lemma {:induction false} SplitJoin(fields: seq<string>)
    requires |fields| >= 1
    requires forall i :: 0 <= i < |fields| ==> ' ' !in fields[i]
    ensures Split(Join(fields)) == fields
    decreases |fields|
  {
    if |fields| == 1 {
      SplitAfterWord(fields[0], "");
      assert fields[0] + "" == fields[0];
    } else {
      var j := Join(fields[1..]);
      SplitJoin(fields[1..]);
      assert Split(" " + j) == [""] + Split(j) by {
        assert (" " + j)[1..] == j;
      }
      assert fields[0] + " " + j == fields[0] + (" " + j);
      SplitAfterWord(fields[0], " " + j);
      assert fields[0] + "" == fields[0];
    }
  }

  /** The token: `authHeader && authHeader.split(' ')[1]`, where an absent header, a header
      with no second piece and an empty second piece all count as no token. The word before
      the first space is not looked at. */
  function ExtractToken(header: Option<string>): Option<string> {
    match header
    case None => None
    case Some(h) =>
      var fields := Split(h);
      if |fields| >= 2 && fields[1] != "" then Some(fields[1]) else None
  }

  /** A header `<word> <token>` yields the token whatever the word is, and anything after
      a further space is ignored. */
  lemma TokenIsSecondField(word: string, token: string, tail: string)
    requires ' ' !in word && ' ' !in token && token != ""
    requires tail == "" || tail[0] == ' '
    ensures ExtractToken(Some(word + " " + token + tail)) == Some(token)
  {
    assert word + " " + token + tail == word + (" " + (token + tail));
    SplitAfterWord(word, " " + (token + tail));
    assert Split(" " + (token + tail)) == [""] + Split(token + tail) by {
      assert (" " + (token + tail))[1..] == token + tail;
    }
    SplitAfterWord(token, tail);
    if tail != "" {
      assert Split(tail) == [""] + Split(tail[1..]);
    }
    assert token + Split(tail)[0] == token;
  }

  /** A header without a space carries no token. */
  lemma NoSpaceNoToken(h: string)
    requires ' ' !in h
    ensures ExtractToken(Some(h)) == None
  {
    SplitAfterWord(h, "");
    assert h + "" == h;
  }

  /** The first two pieces of a join, and what follows them. */
  lemma JoinParts(f: seq<string>)
    requires |f| >= 2
    ensures Join(f) == f[0] + " " + f[1] + (if |f| == 2 then "" else " " + Join(f[2..]))
  {
    var g := f[1..];
    assert Join(f) == f[0] + " " + Join(g);
    assert g[0] == f[1];
    if |f| > 2 {
      assert g[1..] == f[2..];
      assert Join(g) == f[1] + " " + Join(f[2..]);
      assert f[0] + " " + (f[1] + " " + Join(f[2..])) == f[0] + " " + f[1] + (" " + Join(f[2..]));
    } else {
      assert f[0] + " " + f[1] == f[0] + " " + f[1] + "";
    }
  }

  /** `h` is a space-free `word`, one space, the non-empty space-free `token`, and then
      nothing or text starting with a space. */
  ghost predicate ShapedAs(h: string, word: string, token: string, tail: string) {
    && h == word + " " + token + tail && ' ' !in word && ' ' !in token
    && token != "" && (tail == "" || tail[0] == ' ')
  }

  /** Every extracted token is the text between the header's first space and the next
      space or the end, and is not empty. With `TokenIsSecondField` this is an exact
      description of the headers that carry a given token. */
  lemma TokenShape(h: string, token: string)
    requires ExtractToken(Some(h)) == Some(token)
    ensures exists word, tail :: ShapedAs(h, word, token, tail)
  {
    var f := Split(h);
    JoinSplit(h);
    JoinParts(f);
    var tail := if |f| == 2 then "" else " " + Join(f[2..]);
    assert f[1] == token;
    assert ShapedAs(h, f[0], token, tail);
  }

  /** `authenticateToken`: no token is 401, a token the verifier refuses is 403, and a
      verified token attaches its claims and passes the request on. */
  function AuthenticateToken(header: Option<string>, verify: string -> Option<Payload>): (r: TokenOutcome)
    ensures r == TokenRejected(401, MissingTokenMessage) <==> ExtractToken(header).None?
    ensures r.TokenRejected? ==>
      r == TokenRejected(401, MissingTokenMessage) || r == TokenRejected(403, InvalidTokenMessage)
    ensures r.Authenticated? ==>
      ExtractToken(header).Some? && verify(ExtractToken(header).value) == Some(r.user)
    ensures ExtractToken(header).Some? && verify(ExtractToken(header).value).None? ==>
      r == TokenRejected(403, InvalidTokenMessage)
    ensures ExtractToken(header).Some? && verify(ExtractToken(header).value).Some? ==>
      r == Authenticated(verify(ExtractToken(header).value).value)
  {
    match ExtractToken(header)
    case None => TokenRejected(401, MissingTokenMessage)
    case Some(token) =>
      match verify(token)
      case None => TokenRejected(403, InvalidTokenMessage)
      case Some(user) => Authenticated(user)
  }

  /** Without a token the verifier is never consulted: every verifier gives the same 401. */
  lemma MissingTokenIgnoresVerifier(header: Option<string>, v1: string -> Option<Payload>, v2: string -> Option<Payload>)
    requires ExtractToken(header).None?
    ensures AuthenticateToken(header, v1) == AuthenticateToken(header, v2) == TokenRejected(401, MissingTokenMessage)
  {
  }
}
